=== FILE: README.md ===
# Border registry: a Dafny model

The repository is a Laravel and React application that keeps a registry of
border crossings. Each row records a traveller, the document they travelled
on, the direction and the reason of the trip. Around that table sit:

- a report builder that filters, sorts and projects the rows, and exports them as CSV or PDF;
- a dashboard of counts;
- user and role ("group") administration;
- a handful of client-side pages.

This project models the logic of those pieces as pure functions over immutable
state, and proves what they promise.

- The registry table is a `seq<Record>` in storage order, with distinct ids.
- Users and roles are maps from id to entity plus the next auto-increment id.
- Saved report configurations are a sequence plus a next id.
- Each controller action is a function from state and request to a
  `Result`: the new state or the error the action reports.
- Each client handler is a function from the form state to the new form state
  and the request it sends, if any.

Modules:

- `Results`, `Http`, `Strings`, `Sorting`, `Lists`: shared vocabulary.
  - `Http` covers request fields that are missing, null or a string, PHP's
    `empty()`, Laravel's `required|string|max:n`, and the list of failing fields.
  - `Strings` covers substring, lexicographic order and ASCII lower-casing.
  - `Sorting` is a stable insertion sort under a total preorder.
  - `Lists` covers filter, the add-or-remove toggle and JavaScript's `slice(0, n)`.
- `Registry`: the `registry` table, its columns, the ORDER BY value order, and
  the `index`, `update` and `destroy` actions of RegistryController.
- `Reports`: ReportController's shared filter / sort / select pipeline, the
  `generate` and `export` endpoints, and the per-user saved configurations
  (`save`, `index`).
- `Dashboard`: DashboardController's totals, the twelve-month zero-filled
  histogram and the five newest rows.
- `Accounts`: Settings\ProfileController's profile, password and user
  management actions over the `users` table.
- `DefaultAdmin`: the migration that seeds the default administrator.
- `Groups`: GroupController over the role store (Spatie roles and permissions).
- `ReportsPage`, `GroupsPage`, `AuditsPage`, `Sidebar`, `SettingsLayout`,
  `AppPages`, `AuthProps`: the client-side pages and helpers.

Clock readings (`now`), the `date` and `email` validation rules and the page
files bundled by Vite are parameters of the functions that need them.

## What the code does not do

- There is no uniqueness rule or index on document numbers or national ID
  numbers (`database/migrations/2025_05_18_233930_create_registry_table.php:21`,
  `app/Http/Controllers/RegistryController.php:91`), so no uniqueness
  invariant is stated.
- The upload, CSV storage, search and registry export routes
  (`routes/web.php:24-25`, `routes/web.php:39-40`) name RegistryController
  methods that do not exist, so there is nothing to model for them.
- The PDF export loads the view `pdf.reports`. The only PDF view in the
  repository expects variables that are never passed. The model stops at the
  data handed to the view.
- The password form is routed to a separate controller
  (`routes/settings.php:14`). The model still covers ProfileController's own
  `updatePassword`.
- `export` repeats `generate`'s query text (filters, sort and select,
  `app/Http/Controllers/ReportController.php:131-158` against lines 48-76),
  adding only `->toArray()`. The model therefore shares one `Query` between
  the two endpoints, and the parity lemmas hold by that construction.

## Model

| member | source | states |
|---|---|---|
| Reports.Where | app/Http/Controllers/ReportController.php:48-68 | Every kept row satisfies each active filter. A row is kept iff it is stored and matches. Each row's multiplicity is its stored count when it matches and 0 otherwise. Storage order is kept. |
| Reports.ConditionsMeanFilters | app/Http/Controllers/ReportController.php:51-68 | The six conditional `where` clauses together hold of a row iff its nationality contains the filter, sex / travel reason / direction equal theirs, and the travel date lies inside the inclusive from/to range. |
| Reports.HoldsOnFields | app/Http/Controllers/ReportController.php:51-68 | Each single clause (LIKE, equality, date lower bound, date upper bound) read on the row's own fields. |
| Reports.EmptyFiltersKeepAll | app/Http/Controllers/ReportController.php:51-66 | When every filter value is PHP-empty (missing, "" or "0"), no clause is added and every row comes back in storage order. |
| Reports.Arrange | app/Http/Controllers/ReportController.php:71-73 | Ordering permutes the rows. With no sort column the order is untouched. With one, the rows are sorted by that column, ascending or descending. |
| Reports.ComparatorOrders | app/Http/Controllers/ReportController.php:72 | The ORDER BY comparison on one column, in either direction, is a total preorder. |
| Reports.Project | app/Http/Controllers/ReportController.php:76 | A result row has exactly the selected columns as keys, each holding the row's value in that column. |
| Reports.ResolveColumns | app/Http/Controllers/ReportController.php:76 | The selection resolves iff every name is a column. The resolved columns carry the requested names in order. A failure names an unknown requested column. |
| Reports.Plan | app/Http/Controllers/ReportController.php:36-76 | Accepted iff the selection is non-empty, the direction is asc, desc, null or missing, a sort column is not paired with a null direction, every selected name is a column, and so is the sort column when there is one. An empty selection or a bad direction is a validation failure. A null direction with a sort column is BadDirection. An unknown name is UnknownColumn naming it. On success the columns mirror the selection, and the query is ordered iff `sortBy` is non-empty, on that column, descending iff `sortOrder` is "desc". |
| Reports.ReportRecords | app/Http/Controllers/ReportController.php:48-73 | The report's rows are a permutation of the filtered rows. They keep storage order when unsorted and are sorted by the requested column otherwise. |
| Reports.ReportRecordsMatch | app/Http/Controllers/ReportController.php:48-73 | Every reported row satisfies the filters. A row's count in the report is its stored count if it matches and 0 otherwise, so nothing is invented. |
| Reports.ReportComplete | app/Http/Controllers/ReportController.php:48-76 | With distinct ids, a row appears in the report exactly once if it is stored and matches every filter, and never otherwise. |
| Reports.DistinctIdsCountOnce | app/Http/Controllers/ReportController.php:48 | In a table with distinct ids each stored row occurs exactly once. |
| Reports.Query | app/Http/Controllers/ReportController.php:36-76 | The query succeeds iff the request plans. Otherwise it fails with the planning error. It returns one row per matching record, each keyed by exactly the selected columns. |
| Reports.QueryRows | app/Http/Controllers/ReportController.php:71-76 | Each result row is the projection of the matching record at the same position. |
| Reports.Generate | app/Http/Controllers/ReportController.php:34-93 | `generate` succeeds exactly when the query does and shows its rows. The saved reports it lists are exactly the caller's configurations in storage order (`Reports.Index`), so all belong to the caller. |
| Reports.Header | app/Http/Controllers/ReportController.php:162 | The CSV header has one label per requested column name, equal to that name. |
| Reports.CsvLines | app/Http/Controllers/ReportController.php:163-165 | One CSV line per result row, each built from that row. |
| Reports.CsvLine | app/Http/Controllers/ReportController.php:163-165 | With a repeat-free selection a line has one cell per selected column. |
| Reports.Export | app/Http/Controllers/ReportController.php:117-177 | A failing query fails the export with the same error. "csv" yields a file of N+1 lines headed by the selection. "pdf" hands the view the selection and the rows. Any other format is the "invalid export format" error. |
| Reports.CsvShape | app/Http/Controllers/ReportController.php:160-167 | A successful query's CSV export is the header line followed by the CSV lines of the rows. |
| Reports.CsvMatchesGenerate | app/Http/Controllers/ReportController.php:48-167 | `export` as CSV and `generate` on the same request agree: the CSV is the header followed by one line for each row `generate` shows, in the same order. |
| Reports.PdfMatchesGenerate | app/Http/Controllers/ReportController.php:131-173 | `export` as PDF hands the view exactly the rows `generate` shows. |
| Reports.CsvLinesAligned | app/Http/Controllers/ReportController.php:160-167 | With a repeat-free selection every CSV line, the header included, has one cell per selected column. |
| Reports.Save | app/Http/Controllers/ReportController.php:95-115 | `save` succeeds iff the name is a filled string of at most 255 characters, the selection is non-empty and the direction is asc/desc or missing. It appends exactly one configuration owned by the caller, whose id is the next auto-increment value, which then advances by one, with `sortBy` defaulting to "" and `sortOrder` to "asc". |
| Reports.Index | app/Http/Controllers/ReportController.php:15-32 | The caller sees exactly their own configurations, in storage order, and nobody else's. |
| Registry.Find | app/Http/Controllers/RegistryController.php:84 | `findOrFail` finds a row with the id, or reports that no row has it. |
| Registry.Index | app/Http/Controllers/RegistryController.php:15-30 | `index` hands over the stored rows unchanged, in storage order (`Registry::all()`); the function is the identity on the table. |
| Registry.ParseColumn | app/Http/Controllers/ReportController.php:72-76 | A column name that resolves names that column. |
| Registry.ParseColumnName | database/migrations/2025_05_18_233930_create_registry_table.php:14-32 | Every column of the table is found again by its name. |
| Registry.ValueLeTotal | app/Http/Controllers/ReportController.php:72 | Any two cell values are comparable under the ORDER BY order. |
| Registry.ValueLeTrans | app/Http/Controllers/ReportController.php:72 | The ORDER BY order on cell values is transitive. |
| Registry.UpdateChecksMeanValid | app/Http/Controllers/RegistryController.php:85-101 | The sixteen rules pass together iff the request is valid field by field. Eleven text fields must be filled strings of at most 255 characters and `sex` of at most 50. `dob` and `travel_date` must be filled dates, `age` an integer of at least 0, and `note` null, missing or at most 1000 characters. |
| Registry.Update | app/Http/Controllers/RegistryController.php:81-110 | The store effect and the validator's verdict. An unknown id is NotFound before any rule runs. An invalid request is refused, and the validator's failing fields are exactly the failing rules; the controller's catch then replaces both with one generic error page (Registry.UpdateAsWritten). A valid request whose `dob`, `travel_date` or `note` is longer than its VARCHAR(255) column, or whose `age` exceeds the signed 32-bit INT, is refused by the database (StorageFailed) with the table unchanged. Success iff the row exists, the request is valid and every value fits its column. The table keeps its length, every other row is unchanged, and `updated_at` moves to `now` only when something changed. |
| Registry.UpdateAsWritten | app/Http/Controllers/RegistryController.php:81-110 | The answer `update` gives. It is never the redirect: the row is written and then the request ends in an uncaught server error, iff the row exists, the request is valid and every value fits its column; every other row is unchanged. Otherwise the answer is the one error page "Unable to update registry record.", for a missing row, a rejected field and a value the column refuses alike. |
| Registry.UpdateRedirecting | app/Http/Controllers/RegistryController.php:103-109 | `update` with the `Redirect` facade imported: a write ends on `registry.index` with "Record updated successfully." iff the row exists, the request is valid and every value fits its column, with every other row unchanged; otherwise the same error page. Never a server error. |
| Registry.WrittenUpdateEndsInServerError | app/Http/Controllers/RegistryController.php:103-105 | Every update that writes the row answers with a server error, although the table is the one the redirecting version leaves and the one `Registry.Update` writes. |
| Registry.LongNoteFailsWrite | app/Http/Controllers/RegistryController.php:98 | A request with a 300-character note passes every rule of `update`, yet the write is refused (StorageFailed) and the answer is the error page. |
| Registry.WithinColumnsMeansWritten | database/migrations/2025_05_18_233930_create_registry_table.php:23-28 | With `note` limited to 255 characters, `age` to the INT range and the two dates to 255 characters, the rules pass together iff the request is valid and every value fits its column, so a value its column would refuse is a field error instead. |
| Registry.LongNoteReportedOnNote | app/Http/Controllers/RegistryController.php:98 | Under the corrected rules the 300-character note is refused as a field error on `note`, and on no other field. |
| Registry.UpdateHidesFailingFields | app/Http/Controllers/RegistryController.php:83-110 | For a stored row and an invalid request the validator does fail with at least one field, yet the answer equals the one an empty table gives: the field list never reaches the edit form. |
| Registry.Fill | app/Http/Controllers/RegistryController.php:103 | Filling keeps the id, the national ID number and `created_at`. `updated_at` becomes `now` iff the row changed. |
| Registry.FillColumn | app/Http/Controllers/RegistryController.php:85-103 | Each validated column takes the requested value. `note` counts as validated only when sent. Every other column keeps its value. |
| Registry.UpdateColumns | app/Http/Controllers/RegistryController.php:84-103 | A successful update overwrites exactly the validated columns of the row with that id and no other column. |
| Registry.UpdateKeepsIds | app/Http/Controllers/RegistryController.php:84-103 | An update keeps every row's id, so ids stay distinct. |
| Registry.Destroy | app/Http/Controllers/RegistryController.php:116-126 | Succeeds iff a row has the id; an unknown id is NotFound with no change. On success exactly one row goes, every row with another id stays, and with distinct ids the survivors are exactly the rows whose id differs. |
| Dashboard.Grouped | app/Http/Controllers/DashboardController.php:29-40 | The grouped query has an entry for a month iff some row created since a year ago falls in it. The entry is that number of rows. |
| Dashboard.WindowMonthFullyCounted | app/Http/Controllers/DashboardController.php:33-47 | For the twelve window months the lower bound drops no rows: the grouped count is the month's full count. |
| Dashboard.MonthlyWindow | app/Http/Controllers/DashboardController.php:43-47 | The window the zero-filling loop evidently intends: exactly twelve consecutive months, now−11 … now, ascending, each mapped to its row count or 0. The loop as written gives this only on days 1–28 (Dashboard.MonthlyWindowAsWritten). |
| Dashboard.SubMonthsKey | app/Http/Controllers/DashboardController.php:45 | The bucket of `subMonths($i)` lies in the month `$i` back or the month after it (Carbon's day overflow); up to day 28 it is always the month `$i` back. |
| Dashboard.Put | app/Http/Controllers/DashboardController.php:46 | `$months[$month] = …`: the key set gains exactly the key, an existing key leaves the length unchanged, a new key is appended with its value, every entry is the new one or an old one, and distinct keys stay distinct. |
| Dashboard.MonthlyWindowAsWritten | app/Http/Controllers/DashboardController.php:43-47 | The `$months` array as the loop builds it: distinct keys, exactly the twelve `subMonths($i)` buckets, each holding the grouped count of its month. |
| Dashboard.WindowAsWrittenEarlyDays | app/Http/Controllers/DashboardController.php:43-47 | On days 1–28 the array as written is the twelve consecutive months now−11 … now, in order. |
| Dashboard.MonthEndWindowCollapses | app/Http/Controllers/DashboardController.php:43-47 | On 31 March 2025 the array as written has seven entries and no February 2025. |
| Dashboard.OutsideWindowDropped | app/Http/Controllers/DashboardController.php:44-47 | A month outside now−11 … now has no entry in the window. |
| Dashboard.YearAgoMonthGrouped | app/Http/Controllers/DashboardController.php:33 | A row created in month now−12 after the lower bound makes the grouped query count that month, which the window then drops. |
| Dashboard.NewestRows | app/Http/Controllers/DashboardController.php:50-55 | `orderBy(created_at desc)->take(5)`: min(5, table size) rows, newest first, drawn from the table with no row taken more often than it is stored, and every stored row either taken or no newer than every taken one. |
| Dashboard.RecentRecords | app/Http/Controllers/DashboardController.php:50-55 | The recent list is the newest rows, position by position, cut down to the six selected fields: at most five entries (fewer only when the table is smaller), newest first. |
| Dashboard.TakeNewest | app/Http/Controllers/DashboardController.php:53-54 | A prefix of the newest-first order takes no row more often than it is stored, and every row left out is no newer than any taken one. |
| Dashboard.CountThisMonth | app/Http/Controllers/DashboardController.php:21-23 | Counts exactly the rows created in the year and month of `now`. |
| Dashboard.CountNationalities | app/Http/Controllers/DashboardController.php:26 | Counts the distinct nationality values. |
| Dashboard.Index | app/Http/Controllers/DashboardController.php:14-55 | The dashboard's total is the row count, together with the month count, the distinct-nationality count, the intended twelve-month window (Dashboard.MonthlyWindow) and the recent list as above. |
| Accounts.UpdateProfile | app/Http/Controllers/Settings/ProfileController.php:41-52 | Succeeds iff the caller exists, and keeps the store valid. Only the caller changes, taking the new name and email. Verification is cleared iff the email changed (or was never set) and kept otherwise. Id, password and role are untouched. |
| Accounts.DestroyProfile | app/Http/Controllers/Settings/ProfileController.php:57-73 | Succeeds iff the caller exists and the given password checks against their hash. A missing or wrong password is a validation error on `password` with nothing deleted. On success exactly the caller is removed, everyone else is untouched, the id counter stays and the store stays valid. |
| Accounts.UpdatePassword | app/Http/Controllers/Settings/ProfileController.php:86-102 | Success iff the current password is given and correct and the new one has at least 8 characters and is confirmed. A wrong current password is WrongPassword. On success only the caller's password changes, to a hash of the new one. |
| Accounts.StoreUser | app/Http/Controllers/Settings/ProfileController.php:134-151 | Success iff the name, the email (well formed and not taken), the password (at least 8 characters) and the role (admin or user) pass. Exactly one user is added under the next id with those fields, unverified. Existing users are untouched. |
| Accounts.UpdateUser | app/Http/Controllers/Settings/ProfileController.php:156-165 | An unknown user is NotFound and a role outside {admin, user} is a validation error; success iff neither. Only that user's role changes, and the store stays valid. |
| Accounts.DestroyUser | app/Http/Controllers/Settings/ProfileController.php:170-179 | An unknown user is NotFound. Deleting oneself is refused with no change. Success iff the target exists and is not the caller; then exactly the target is removed, the id counter stays and the store stays valid. |
| Accounts.UpdateProfileIdempotent | app/Http/Controllers/Settings/ProfileController.php:41-52 | Saving the same profile twice equals saving it once. |
| Accounts.NewPasswordConfirmsDeletion | app/Http/Controllers/Settings/ProfileController.php:57-99 | After a successful password change, the new password is accepted by the account-deletion check. |
| Accounts.DestroyUserTwiceNotFound | app/Http/Controllers/Settings/ProfileController.php:170-179 | A deleted user cannot be deleted again: the second attempt is NotFound. |
| DefaultAdmin.Up | database/migrations/2025_06_09_014814_add_default_admin_user.php:15-31 | Inserts the administrator (name Herman Tevilili, role admin, hash of the seeded password) only when no user has its email. Existing users are kept, and afterwards the email is taken. |
| DefaultAdmin.UpIdempotent | database/migrations/2025_06_09_014814_add_default_admin_user.php:22-23 | Running `up` twice equals running it once, so at most one user is added. |
| DefaultAdmin.Down | database/migrations/2025_06_09_014814_add_default_admin_user.php:38-43 | Deletes every user with the administrator's email and no other. |
| DefaultAdmin.DownUndoesUp | database/migrations/2025_06_09_014814_add_default_admin_user.php:15-43 | On a store without the administrator, `down` after `up` restores the users. |
| Groups.Store | app/Http/Controllers/GroupController.php:37-42 | Success iff the name is a filled string of at most 255 characters that no role has. One role without permissions is added, and role names stay unique. |
| Groups.Update | app/Http/Controllers/GroupController.php:44-49 | Success iff the role exists and the new name is not taken by another role. Only that role's name changes, and names stay unique. |
| Groups.RenameToSelfAllowed | app/Http/Controllers/GroupController.php:46 | Renaming a role to its own name is accepted and changes nothing. |
| Groups.Destroy | app/Http/Controllers/GroupController.php:51-55 | Succeeds iff the role exists; then removes exactly that role, keeps the id counter, and keeps the store valid and its names unique. |
| Groups.Unknown | app/Http/Controllers/GroupController.php:59 | The requested names missing from the permission catalogue. |
| Groups.AssignPermissions | app/Http/Controllers/GroupController.php:57-62 | Any unknown name rejects the request and the rejection lists exactly the unknown names. On success the role's permission set becomes exactly the requested names (empty when the field is missing), not merged with the old one. Nothing else changes. |
| Groups.AssignPermissionsIdempotent | app/Http/Controllers/GroupController.php:60 | Syncing the same permissions twice equals syncing once. |
| Lists.Toggle | resources/js/pages/registry/reports.tsx:102-108 | Removes the element if present and appends it at the end otherwise. |
| Lists.ToggleTwiceRestores | resources/js/pages/registry/reports.tsx:102-108 | Toggling an absent element twice restores the list. |
| Lists.ToggleNoDuplicates | resources/js/pages/registry/reports.tsx:102-108 | Toggling keeps a repeat-free list repeat-free. |
| ReportsPage.AvailableIdsDistinct | resources/js/pages/registry/reports.tsx:48-65 | The column list has 16 entries with pairwise distinct ids. |
| ReportsPage.AvailableIdsAreColumns | resources/js/pages/registry/reports.tsx:48-65 | Every offered id names a column of the registry table. |
| ReportsPage.OpenDialog | resources/js/pages/registry/reports.tsx:84-100 | Opening the dialog empties the selection, the sort column, the name and the error, sets the direction to "asc" and resets the filters to the six keys with empty values, so none is active. |
| ReportsPage.ColumnChange | resources/js/pages/registry/reports.tsx:102-108 | Unticks a ticked column, otherwise ticks it at the end. Nothing else in the form changes. |
| ReportsPage.DialogStaysWellFormed | resources/js/pages/registry/reports.tsx:84-108 | The dialog's reset and toggles keep the selection repeat-free and within the offered columns. |
| ReportsPage.CreateReport | resources/js/pages/registry/reports.tsx:114-132 | Nothing is sent iff no column is ticked, and then the error is "Please select at least one column.". Otherwise the current form is posted to the generate endpoint. |
| ReportsPage.SaveReport | resources/js/pages/registry/reports.tsx:134-157 | The name is checked first and the columns second, and the first failing check sets the error. Otherwise the named form is posted to the save endpoint. |
| ReportsPage.Export | resources/js/pages/registry/reports.tsx:172-183 | Nothing is sent iff no column is ticked. Otherwise the current form is posted to the export endpoint of the chosen format. |
| ReportsPage.LoadSavedReport | resources/js/pages/registry/reports.tsx:159-170 | Submits exactly the saved columns, filters, sort column and direction to the generate endpoint. |
| ReportsPage.Received | resources/js/pages/registry/reports.tsx:114-132 | What the server receives after the framework's trimming and empty-to-null step: the same selection (the middleware trims array elements too, but the selection holds the page's fixed column ids, which have no whitespace to trim); a blank sort column or direction arrives as null and any other arrives trimmed; the filters keep their keys, a blank filter value is inactive and any other arrives trimmed. |
| ReportsPage.ReceivedKeepsFormValues | resources/js/pages/registry/reports.tsx:114-132 | The dialog's direction and column ids have nothing to trim: the direction arrives as sent, an unset sort column as null, a set one as sent. |
| ReportsPage.SubmittedReportAccepted | resources/js/pages/registry/reports.tsx:48-132 | Any report the dialog lets the user submit passes the server's validation and resolves its columns. |
| GroupsPage.GateMatchesSidebar | resources/js/pages/groups/index.tsx:39-50 | The access-denied view shows iff the user lacks "view groups", which is exactly when the sidebar hides the page. |
| GroupsPage.EditGroup | resources/js/pages/groups/index.tsx:68-71 | Editing a group selects exactly its permission names, in order. |
| GroupsPage.TogglePermission | resources/js/pages/groups/index.tsx:96-102 | Removes a selected name, otherwise appends it. Nothing else on the page changes. |
| GroupsPage.ToggleFlipsChoice | resources/js/pages/groups/index.tsx:96-102 | Toggling adds the name to, or removes it from, the chosen permission set. |
| GroupsPage.AssignPermissions | resources/js/pages/groups/index.tsx:89-94 | The request carries the role and the current selection unchanged. |
| GroupsPage.EditThenAssignKeepsRole | resources/js/pages/groups/index.tsx:68-94 | Opening a listed role and saving without changes leaves the role store as it was. |
| GroupsPage.DisabledButtonsMatchServer | resources/js/pages/groups/index.tsx:137-183 | Create is disabled on an empty name and Update on an empty edited name, and the server would reject either name. |
| AuditsPage.Receive | resources/js/pages/audits/index.tsx:60-70 | Audits of other models leave the list unchanged. A registry audit goes first and the page keeps its size setting. With a page size of at least 1 the list has at most that many entries, the rest being the first `per_page`−1 earlier ones in order. |
| AuditsPage.ZeroPageSizeKeepsLength | resources/js/pages/audits/index.tsx:64 | With a page size of 0 the slice counts from the back, so the list keeps its length. |
| AuditsPage.NewestFirst | resources/js/pages/audits/index.tsx:64 | Two successive registry audits show newest first. |
| AuditsPage.Changes | resources/js/pages/audits/index.tsx:86-90 | Shows the old values of a deletion and the new values otherwise. |
| AuditsPage.UserColumn | resources/js/pages/audits/index.tsx:79 | Shows the user's name, or "N/A" when there is no user or name. |
| Sidebar.FilteredItems | resources/js/components/app-sidebar.tsx:50-52 | An item is kept iff it needs no permission or the user holds it, and the result keeps the original order. |
| Sidebar.MainNav | resources/js/components/app-sidebar.tsx:14-52 | The visible links are an ordered subsequence of the main links. Those without a permission are always shown, and one with a permission is shown iff the user holds it. |
| Sidebar.MainNavContents | resources/js/components/app-sidebar.tsx:30-52 | A user without "view groups", or no user at all, loses exactly Group Management. A user holding it sees all four links. |
| SettingsLayout.NavItems | resources/js/layouts/settings/layout.tsx:12-44 | Profile, Password and Appearance come first, in that order. User Management is appended last iff the role is admin, giving 4 items for an admin and 3 otherwise. |
| SettingsLayout.AtMostOneHighlighted | resources/js/layouts/settings/layout.tsx:62 | An item is highlighted iff the path equals its href, and at most one item is highlighted. |
| AppPages.PagePath | resources/js/app.tsx:19-21 | The lookup path is already lower case. |
| AppPages.FirstMatch | resources/js/app.tsx:19-21 | The first key matching the path once lower-cased, or none. |
| AppPages.Resolve | resources/js/app.tsx:16-26 | Returns the first bundled key k with lower(k) = "./pages/" + lower(name) + ".tsx". When none matches it fails with "Page not found: " + name. |
| AppPages.ResolveIgnoresCase | resources/js/app.tsx:19-21 | Names that differ only in letter case resolve alike. |
| AppPages.ExactFileResolves | resources/js/app.tsx:19-21 | A page file named exactly after the page is always found. |
| AppPages.FirstCaseVariantWins | resources/js/app.tsx:19-21 | With both `Error.tsx` and `error.tsx`, the earlier one wins. |
| AppPages.AppName | resources/js/app.tsx:12 | The application name from the environment, falling back to "Laravel" when unset or empty. |
| AppPages.Title | resources/js/app.tsx:15 | The title is the page title, " - ", then the application name. |
| Http.Trim | app/Http/Controllers/ReportController.php:43-46 | PHP's `trim`, as the framework applies it to request strings: an infix with only trimmed characters cut off around it, neither starting nor ending with one, and empty iff the string is blank. |
| Http.TrimIdempotent | app/Http/Controllers/ReportController.php:43-46 | Trimming twice is trimming once. |
| Http.Arrive | app/Http/Controllers/ReportController.php:43-46 | A request field as the controller reads it: absent stays absent; a string arrives as null iff it is blank (empty, for the untrimmed password fields) and otherwise trimmed, non-empty and with no trimmed character at either end; the password fields arrive unchanged. |
| Http.ArriveIdempotent | app/Http/Controllers/ReportController.php:43-46 | The trimming and empty-to-null step changes nothing the second time. |
| Http.ArrivedFilled | app/Http/Controllers/RegistryController.php:85-101 | The `required` rule gives the same verdict on a field before and after the framework's step. |
| Http.Failing | app/Http/Controllers/RegistryController.php:85-102 | The failing fields are exactly those whose rule fails, and the list is empty iff every rule passes. |
| Lists.FilterMembers | resources/js/components/app-sidebar.tsx:50-52 | Filtering keeps exactly the elements satisfying the predicate. |
| Lists.SliceTo | resources/js/pages/audits/index.tsx:64 | JavaScript's `slice(0, end)`: a prefix of `end` elements (capped at the length), and a negative `end` counts from the back. |
| Sorting.Sort | app/Http/Controllers/ReportController.php:72 | Sorting yields a sorted permutation. |
| Strings.LexLeTotal | app/Http/Controllers/ReportController.php:57-62 | The date-key order is total. |
| Strings.LexLeTrans | app/Http/Controllers/ReportController.php:57-62 | The date-key order is transitive. |

## Left out

- CSV upload, CSV storage, registry search and registry export: the routes name controller methods that do not exist. There is also no uniqueness check on document numbers or national ID numbers.
- SQL matching details. LIKE's case sensitivity depends on the collation, and `%` and `_` typed by the user act as wildcards. The model uses plain substring containment.
- `whereDate` parses its strings as dates. The model compares dates as strings in lexicographic order, which is calendar order for ISO `YYYY-MM-DD` values only.
- Column names: the model accepts exactly the twenty column names of the table and treats every other selected or sort name as the database error `UnknownColumn`. SQL also accepts `*`, table-qualified names and aliases, which are not modelled. The tie order among equal sort keys is the database's, and the model only claims a sorted permutation.
- String comparison follows code points, not the database collation. The equality filters (sex, travel reason, direction), ORDER BY on text columns and the distinct-nationality count use a collation that may ignore case and trailing spaces. In the model, "male" does not match "Male", "Baker" sorts before "adams", and "Fiji" and "FIJI" count as two nationalities.
- The `date` and `email` validation rules are framework code. They are parameters (`isDate`, `isEmail`).
- PDF rendering (DomPDF and the view) is out. The model stops at the columns and rows handed to the view.
- Password hashing is an injective digest, so `Hash::check` holds exactly for the hashed password. Logout, session invalidation and token regeneration are out.
- Accounts.UpdateProfile: the name and email rules live in a form-request class that is not part of this model, so the inputs arrive already validated.
- Accounts.UpdatePassword: the `string` rule and the strength rules beyond the minimum length of eight are not modelled.
- Email uniqueness compares strings exactly. The database collation may ignore case.
- Inertia rendering, flash messages, logging and page contents are out. The answers of `update` are modelled as three shapes (server error, error page, redirect) carrying the table, route and message, not as HTTP responses; the `Redirect` facade that RegistryController uses without importing it is in Findings.
- Registry.Update, Registry.UpdateAsWritten: the stored rows are taken to fit their columns already; the width limits are checked only on the values a request writes. The database's other limits (the 64 KB row size, character sets) are not modelled.
- Broadcasting: the Echo channel setup and the `AuditLogged` event are out. The page's listener is modelled as a function from the current listing and the incoming audit.
- AuditsPage.Changes: the column's JSON rendering and the HTML escaping call (which replaces `<` with itself) are not modelled. It returns the values shown.
- Deleting a user does not model the database's cascade onto that user's saved report configurations.
- `created_at` is assumed present on every registry row. Rows with a null timestamp would be dropped by the dashboard's comparisons.
- Dashboard.YearAgo: `subMonths(12)` is taken as the same month and second one year earlier. Carbon's day overflow at month ends is left out, and a timestamp is (year, month, second in month).
- Registry.Update, Reports.Plan, Reports.Save, Groups.Store, Groups.Update, Groups.AssignPermissions, Accounts.StoreUser: the framework's global middleware trims every request string, array elements included (the selected columns, the permission names), except `password`, `password_confirmation` and `current_password`, and then turns empty strings into null (`Http.Arrive`). The model applies this step to what the report page sends (`ReportsPage.Received`). The controller members take their parameters as already delivered and do not apply it again. Given untrimmed input they would store and compare it untrimmed: `max:n` would count the untrimmed length, a nationality filter would search for the spaces too, a whitespace-only filter would count as active, and "admin " would pass `unique` beside "admin". So a `Given` value that is empty, whitespace-only or edged with whitespace (outside the password fields) never reaches a controller. An empty or blank direction arrives as null, passes validation, and then fails in `orderBy` when a sort column is set (`BadDirection`). `Http.Trim` strips PHP's `trim` characters; the further Unicode spaces some framework versions strip are not modelled.
- Registry.Update: the controller's catch-all turns both a missing row and a failed validation into the one generic error page (`Registry.UpdateAsWritten`). `Registry.Update` models the store effect and the validator's field list, which the response never carries; see Findings.
- Dashboard.MonthlyWindow, Dashboard.Index: the window is built with month arithmetic that never overflows. The source's keys come from `Carbon::now()->subMonths($i)`, which keeps the day of the month, so on days 29–31 keys repeat and months go missing: on 31 March 2025 the twelve keys are 2024-05, 2024-05, 2024-07, 2024-07, 2024-08, 2024-10, 2024-10, 2024-12, 2024-12, 2025-01, 2025-03, 2025-03, seven entries, with 2024-04, 2024-06, 2024-09, 2024-11 and 2025-02 missing. `Dashboard.MonthlyWindowAsWritten` models that loop; see Findings.
- Unrouted actions: the route files have no route for `reports/save`, for GroupController or for DashboardController (the dashboard route is a closure that renders the page, `routes/web.php:17-19`). So the request `ReportsPage.SaveReport` sends, and the requests of the group page, reach no controller in the repository as it stands. The model describes the controller actions as written, as if they were routed.
- Groups.AssignPermissions: Laravel reports one error key per unknown array index. The model collapses them into a single `UnknownPermissions` error listing the names.
- `toLowerCase` is modelled on ASCII letters only.
- The user management page (fetch calls to an unrouted `/users`), PasswordController, HomeController, the seeder, routes, types, the other migrations and the presentational pages are not part of this model.

## Findings

| source | as written | input that shows it | evidently intended | confidence | as-written member | corrected member |
|---|---|---|---|---|---|---|
| app/Http/Controllers/DashboardController.php:44-46 | each key is `Carbon::now()->subMonths($i)->format('Y-m')`, and Carbon keeps the day of the month, running over into the next month | now = 2025-03-31: the twelve keys collapse to seven entries, and February 2025 is missing | twelve consecutive months ending with the current one (`startOfMonth()` or `subMonthsNoOverflow`) | high, not executed | Dashboard.MonthEndWindowCollapses | Dashboard.MonthlyWindow |
| app/Http/Controllers/RegistryController.php:83-110 | `findOrFail` and `validate` both run inside `try { … } catch (\Exception $e)`, so the ValidationException is caught and rendered as the generic error page | a stored row and a request with an empty `surname`: the answer is the same error page as for a missing row, and `errors.surname` (resources/js/pages/registry/edit.tsx:91) is never set | the validator's per-field errors reach the edit form, with `validate` outside the catch; even then every successful update still ends in the server error described in the RegistryController.php:104 row below | medium, not executed | Registry.UpdateHidesFailingFields | Registry.Update |
| app/Http/Controllers/RegistryController.php:104 | after the write, `Redirect::route(...)` names a class the file never imports (its `use` lines, :5-8, are Registry, Request, Inertia and Log); the class-not-found `Error` is not an `Exception`, so the catch at :105 lets it through | any stored row and any valid request: the row is written, then the request ends in an uncaught server error instead of the redirect | `use Illuminate\Support\Facades\Redirect;` and the redirect to `registry.index` with the success message | high, not executed | Registry.WrittenUpdateEndsInServerError | Registry.UpdateRedirecting |
| app/Http/Controllers/RegistryController.php:98 | `note` may hold 1000 characters, but its column is `string('note')`, a VARCHAR(255) (database/migrations/2025_05_18_233930_create_registry_table.php:28); likewise `age` has no upper bound while its column is a 32-bit `integer` (same file, :23). Under MySQL's strict mode the write fails, the QueryException is caught, and the row stays as it was | a stored row and a valid request whose note is 300 characters long: the answer is the generic error page and nothing is written | the rule matches the column (`max:255`, or a `text` column), and `age` is bounded, so a too-wide value is a field error on that field | medium, not executed | Registry.LongNoteFailsWrite | Registry.LongNoteReportedOnNote |

=== FILE: accounts.dfy ===
/**
 * The `users` table and the Settings\ProfileController actions on it: the
 * caller's own profile, password and account, and the admin-only user
 * management actions. Password hashing is modelled as an injective digest,
 * so `Hash::check` succeeds exactly for the password that was hashed.
 */
module Accounts {
  import opened Results
  import opened Http
  import Registry

  /** A stored password hash. */
  datatype PasswordHash = Digest(secret: string)

  function HashMake(password: string): PasswordHash {
    Digest(password)
  }

  predicate HashCheck(password: string, h: PasswordHash) {
    h == Digest(password)
  }

  datatype User = User(
    id: nat,
    name: string,
    email: string,
    emailVerifiedAt: Option<Registry.Timestamp>,
    password: PasswordHash,
    role: string)

  /** The users by id, and the next auto-increment id. */
  datatype Users = Users(byId: map<nat, User>, nextId: nat)

  /** Each user is stored under its own id, and every id is below the next one. */
  predicate Valid(u: Users) {
    forall id :: id in u.byId ==> id < u.nextId && u.byId[id].id == id
  }

  datatype AccountError =
    | Unauthenticated
    | NotFound
    | ValidationFailed(fields: seq<string>)
    | WrongPassword
    | CannotDeleteSelf

  /** The roles the admin forms accept: `in:admin,user`. */
  predicate AllowedRole(p: Param) {
    p == Given("admin") || p == Given("user")
  }

  /** `Password::defaults()`: at least eight characters. */
  predicate StrongEnough(p: Param) {
    Filled(p) && |p.value| >= 8
  }

  /**
   * `updateProfile`: store the validated name and email on the caller; a
   * changed email clears `email_verified_at`. The request's own rules belong
   * to a form-request class that is not part of this model, so the name and
   * email arrive validated.
   */
  function UpdateProfile(u: Users, actor: nat, name: string, email: string): (r: Result<Users, AccountError>)
    ensures actor !in u.byId <==> r == Err(Unauthenticated)
    ensures r.Ok? <==> actor in u.byId
    ensures r.Ok? ==> r.value.byId.Keys == u.byId.Keys && r.value.nextId == u.nextId
    ensures r.Ok? && Valid(u) ==> Valid(r.value)
    ensures r.Ok? ==> forall id :: id in u.byId && id != actor ==> r.value.byId[id] == u.byId[id]
    ensures r.Ok? ==> var before, after := u.byId[actor], r.value.byId[actor];
      && after.name == name && after.email == email
      && (after.emailVerifiedAt.None? <==> email != before.email || before.emailVerifiedAt.None?)
      && (email == before.email ==> after.emailVerifiedAt == before.emailVerifiedAt)
      && after.id == before.id && after.password == before.password && after.role == before.role
  {
    if actor !in u.byId then Err(Unauthenticated)
    else
      var before := u.byId[actor];
      var verified := if email != before.email then None else before.emailVerifiedAt;
      Ok(u.(byId := u.byId[actor := before.(name := name, email := email, emailVerifiedAt := verified)]))
  }

  /** `destroyProfile`: delete the caller's account once the current password is confirmed. */
  function DestroyProfile(u: Users, actor: nat, password: Param): (r: Result<Users, AccountError>)
    ensures actor !in u.byId <==> r == Err(Unauthenticated)
    ensures actor in u.byId && !(Filled(password) && HashCheck(password.value, u.byId[actor].password)) ==>
      r == Err(ValidationFailed(["password"]))
    ensures r.Ok? <==> actor in u.byId && Filled(password) && HashCheck(password.value, u.byId[actor].password)
    ensures r.Ok? ==> r.value.byId.Keys == u.byId.Keys - {actor} && r.value.nextId == u.nextId
    ensures r.Ok? && Valid(u) ==> Valid(r.value)
    ensures r.Ok? ==> forall id :: id in r.value.byId ==> r.value.byId[id] == u.byId[id]
  {
    if actor !in u.byId then Err(Unauthenticated)
    else if !(Filled(password) && HashCheck(password.value, u.byId[actor].password)) then Err(ValidationFailed(["password"]))
    else Ok(u.(byId := u.byId - {actor}))
  }

  /** `updatePassword`: validate, check the current password, then store the new hash. */
  function UpdatePassword(u: Users, actor: nat, current: Param, password: Param, confirmation: Param)
    : (r: Result<Users, AccountError>)
    ensures actor !in u.byId <==> r == Err(Unauthenticated)
    ensures r.Ok? ==> Filled(current) && StrongEnough(password) && confirmation == password
    ensures (&& actor in u.byId && Filled(current) && StrongEnough(password) && confirmation == password
             && !HashCheck(current.value, u.byId[actor].password)) ==> r == Err(WrongPassword)
    ensures r.Ok? <==> (&& actor in u.byId && Filled(current) && StrongEnough(password) && confirmation == password
                        && HashCheck(current.value, u.byId[actor].password))
    ensures r.Ok? ==> r.value.byId.Keys == u.byId.Keys && r.value.nextId == u.nextId
    ensures r.Ok? && Valid(u) ==> Valid(r.value)
    ensures r.Ok? ==> forall id :: id in u.byId && id != actor ==> r.value.byId[id] == u.byId[id]
    ensures r.Ok? ==> (&& HashCheck(password.value, r.value.byId[actor].password)
                       && r.value.byId[actor] == u.byId[actor].(password := r.value.byId[actor].password))
  {
    var checks := [("current_password", Filled(current)), ("password", StrongEnough(password) && confirmation == password)];
    var failing := Failing(checks);
    if actor !in u.byId then Err(Unauthenticated)
    else if |failing| > 0 then Err(ValidationFailed(failing))
    else if !HashCheck(current.value, u.byId[actor].password) then Err(WrongPassword)
    else
      assert checks[0].1 && checks[1].1;
      Ok(u.(byId := u.byId[actor := u.byId[actor].(password := HashMake(password.value))]))
  }

  /** Some stored user has this email: the `unique:users` rule fails. */
  predicate EmailTaken(u: Users, email: string) {
    exists id :: id in u.byId && u.byId[id].email == email
  }

  datatype NewUser = NewUser(name: Param, email: Param, password: Param, role: Param)

  /** The rules of `storeUser`; the `email` format rule is the framework's and a parameter here. */
  predicate ValidNewUser(u: Users, q: NewUser, isEmail: string -> bool) {
    && RequiredString(q.name, 255)
    && RequiredString(q.email, 255) && isEmail(q.email.value) && !EmailTaken(u, q.email.value)
    && StrongEnough(q.password)
    && AllowedRole(q.role)
  }

  /** `storeUser`: validate, then add exactly one user under the next id. */
  function StoreUser(u: Users, q: NewUser, isEmail: string -> bool): (r: Result<Users, AccountError>)
    requires Valid(u)
    ensures r.Ok? <==> ValidNewUser(u, q, isEmail)
    ensures r.Err? ==> r.error.ValidationFailed? && |r.error.fields| > 0
    ensures r.Ok? ==> Valid(r.value)
    ensures r.Ok? ==> r.value.byId.Keys == u.byId.Keys + {u.nextId} && u.nextId !in u.byId
    ensures r.Ok? ==> |r.value.byId| == |u.byId| + 1
    ensures r.Ok? ==> forall id :: id in u.byId ==> r.value.byId[id] == u.byId[id]
    ensures r.Ok? ==> var added := r.value.byId[u.nextId];
      && added.name == q.name.value && added.email == q.email.value && added.role == q.role.value
      && HashCheck(q.password.value, added.password) && added.emailVerifiedAt.None?
  {
    var emailOk := RequiredString(q.email, 255) && isEmail(q.email.value) && !EmailTaken(u, q.email.value);
    var checks := [("name", RequiredString(q.name, 255)), ("email", emailOk),
                   ("password", StrongEnough(q.password)), ("role", AllowedRole(q.role))];
    var failing := Failing(checks);
    if |failing| > 0 then
      assert !ValidNewUser(u, q, isEmail) by {
        var k :| 0 <= k < 4 && !checks[k].1;
      }
      Err(ValidationFailed(failing))
    else
      assert checks[0].1 && checks[1].1 && checks[2].1 && checks[3].1;
      var added := User(u.nextId, q.name.value, q.email.value, None, HashMake(q.password.value), q.role.value);
      Ok(Users(u.byId[u.nextId := added], u.nextId + 1))
  }

  /** `updateUser`: the bound user must exist; only its role changes. */
  function UpdateUser(u: Users, target: nat, role: Param): (r: Result<Users, AccountError>)
    ensures target !in u.byId <==> r == Err(NotFound)
    ensures target in u.byId && !AllowedRole(role) ==> r == Err(ValidationFailed(["role"]))
    ensures r.Ok? <==> target in u.byId && AllowedRole(role)
    ensures r.Ok? ==> r.value.byId.Keys == u.byId.Keys && r.value.nextId == u.nextId
    ensures r.Ok? && Valid(u) ==> Valid(r.value)
    ensures r.Ok? ==> forall id :: id in u.byId && id != target ==> r.value.byId[id] == u.byId[id]
    ensures r.Ok? ==> r.value.byId[target] == u.byId[target].(role := role.value)
  {
    if target !in u.byId then Err(NotFound)
    else if !AllowedRole(role) then Err(ValidationFailed(["role"]))
    else Ok(u.(byId := u.byId[target := u.byId[target].(role := role.value)]))
  }

  /** `destroyUser`: an admin may delete anyone but themself. */
  function DestroyUser(u: Users, actor: nat, target: nat): (r: Result<Users, AccountError>)
    ensures target !in u.byId <==> r == Err(NotFound)
    ensures target in u.byId && target == actor <==> r == Err(CannotDeleteSelf)
    ensures r.Ok? <==> target in u.byId && target != actor
    ensures r.Ok? ==> r.value.byId.Keys == u.byId.Keys - {target} && r.value.nextId == u.nextId
    ensures r.Ok? && Valid(u) ==> Valid(r.value)
    ensures r.Ok? ==> forall id :: id in r.value.byId ==> r.value.byId[id] == u.byId[id]
    ensures r.Ok? ==> |r.value.byId| == |u.byId| - 1
  {
    if target !in u.byId then Err(NotFound)
    else if target == actor then Err(CannotDeleteSelf)
    else Ok(u.(byId := u.byId - {target}))
  }

  /** Saving the same profile twice is the same as saving it once: the second save sees no email change. */
  lemma UpdateProfileIdempotent(u: Users, actor: nat, name: string, email: string)
    requires UpdateProfile(u, actor, name, email).Ok?
    ensures UpdateProfile(UpdateProfile(u, actor, name, email).value, actor, name, email) == UpdateProfile(u, actor, name, email)
  {
    var once := UpdateProfile(u, actor, name, email).value;
    var twice := UpdateProfile(once, actor, name, email);
    assert twice.value.byId[actor] == once.byId[actor];
    assert twice.value.byId == once.byId;
  }

  /** After a password change the new password is the one the account-deletion check accepts. */
  lemma NewPasswordConfirmsDeletion(u: Users, actor: nat, current: Param, password: Param, confirmation: Param)
    requires UpdatePassword(u, actor, current, password, confirmation).Ok?
    ensures DestroyProfile(UpdatePassword(u, actor, current, password, confirmation).value, actor, password).Ok?
  {
  }

  /** A deleted user cannot be deleted again. */
  lemma DestroyUserTwiceNotFound(u: Users, actor: nat, target: nat)
    requires DestroyUser(u, actor, target).Ok?
    ensures DestroyUser(DestroyUser(u, actor, target).value, actor, target) == Err(NotFound)
  {
  }
}

=== FILE: app_pages.dfy ===
/**
 * The client entry point: the case-insensitive lookup of a page component
 * by name among the bundled page files, and the document title.
 */
module AppPages {
  import opened Results
  import opened Strings

  /** The path a page name is looked up under: always in lower case. */
  function PagePath(name: string): (path: string)
    ensures Lower(path) == path
  {
    LowerConcat("./pages/" + Lower(name), ".tsx");
    LowerConcat("./pages/", Lower(name));
    LowerIdempotent(name);
    "./pages/" + Lower(name) + ".tsx"
  }

  /** The first key that matches `path` once lower-cased. */
  function FirstMatch(keys: seq<string>, path: string): (r: Option<nat>)
    ensures r.Some? ==> r.value < |keys| && Lower(keys[r.value]) == path
    ensures r.Some? ==> forall j :: 0 <= j < r.value ==> Lower(keys[j]) != path
    ensures r.None? <==> forall j :: 0 <= j < |keys| ==> Lower(keys[j]) != path
    decreases |keys|
  {
    if |keys| == 0 then None
    else if Lower(keys[0]) == path then Some(0)
    else match FirstMatch(keys[1..], path)
      case None => None
      case Some(i) => Some(i + 1)
  }

  /** `resolve`: the page file for `name`, or the "Page not found" error. */
  function Resolve(keys: seq<string>, name: string): (r: Result<string, string>)
    ensures r.Ok? ==> r.value in keys && Lower(r.value) == PagePath(name)
    ensures r.Ok? ==> exists i :: 0 <= i < |keys| && keys[i] == r.value && forall j :: 0 <= j < i ==> Lower(keys[j]) != PagePath(name)
    ensures r.Err? <==> forall k :: k in keys ==> Lower(k) != PagePath(name)
    ensures r.Err? ==> r.error == "Page not found: " + name
  {
    match FirstMatch(keys, PagePath(name))
    case None => Err("Page not found: " + name)
    case Some(i) => Ok(keys[i])
  }

  /** Names that differ only in letter case resolve alike. */
  lemma ResolveIgnoresCase(keys: seq<string>, a: string, b: string)
    requires Lower(a) == Lower(b)
    ensures Resolve(keys, a).Ok? <==> Resolve(keys, b).Ok?
    ensures Resolve(keys, a).Ok? ==> Resolve(keys, a).value == Resolve(keys, b).value
  {
  }

  /** A page file named exactly after the page is always found (possibly as an earlier case variant). */
  lemma ExactFileResolves(keys: seq<string>, name: string)
    requires "./pages/" + name + ".tsx" in keys
    ensures Resolve(keys, name).Ok?
  {
    LowerConcat("./pages/" + name, ".tsx");
    LowerConcat("./pages/", name);
    var k :| k in keys && k == "./pages/" + name + ".tsx";
    assert Lower(k) == PagePath(name);
  }

  /** With both `Error.tsx` and `error.tsx` bundled, the first listed wins. */
  lemma FirstCaseVariantWins()
    ensures Resolve(["./pages/Error.tsx", "./pages/error.tsx"], "error") == Ok("./pages/Error.tsx")
  {
    var path := PagePath("error");
    assert Lower("error") == "error";
    assert Lower("./pages/Error.tsx") == "./pages/error.tsx";
    assert path == "./pages/error.tsx";
  }

  const DefaultAppName := "Laravel"

  /** `VITE_APP_NAME`, falling back to "Laravel" when unset or empty. */
  function AppName(env: Option<string>): (r: string)
    ensures r != ""
    ensures env.Some? && env.value != "" ==> r == env.value
    ensures env.None? || env.value == "" ==> r == DefaultAppName
  {
    if env.Some? && env.value != "" then env.value else DefaultAppName
  }

  /** The document title: the page's title, a dash, and the application name. */
  function Title(title: string, env: Option<string>): (r: string)
    ensures |r| > |title| + 3 && r[..|title|] == title && r[|title|..] == " - " + AppName(env)
  {
    title + " - " + AppName(env)
  }
}

=== FILE: audits_page.dfy ===
/**
 * The audit log page: its User and Changes columns, and the live update that
 * puts a newly broadcast registry audit on top of the current page.
 */
module AuditsPage {
  import opened Results
  import Lists

  /** The audited values, as the page receives them. */
  type Values = map<string, string>

  datatype AuditUser = AuditUser(name: Option<string>)

  datatype Audit = Audit(
    id: nat,
    user: Option<AuditUser>,
    event: string,
    auditableType: string,
    auditableId: nat,
    oldValues: Option<Values>,
    newValues: Option<Values>,
    createdAt: string)

  /** One page of audits and its page size. */
  datatype Listing = Listing(data: seq<Audit>, perPage: int)

  const RegistryModel := "App\\Models\\Registry"

  /** The `AuditLogged` listener: registry audits go on top, the page keeps its size. */
  function Receive(prev: Listing, a: Audit): (r: Listing)
    ensures a.auditableType != RegistryModel ==> r == prev
    ensures a.auditableType == RegistryModel ==> |r.data| > 0 && r.data[0] == a && r.perPage == prev.perPage
    ensures a.auditableType == RegistryModel && prev.perPage >= 1 ==>
      && |r.data| == 1 + (if prev.perPage - 1 <= |prev.data| then prev.perPage - 1 else |prev.data|)
      && |r.data| <= prev.perPage
      && r.data[1..] == prev.data[..|r.data| - 1]
  {
    if a.auditableType == RegistryModel then
      prev.(data := [a] + Lists.SliceTo(prev.data, prev.perPage - 1))
    else prev
  }

  /** A page size of zero makes the slice count from the back, so the page does not shrink to zero. */
  lemma ZeroPageSizeKeepsLength(prev: Listing, a: Audit)
    requires a.auditableType == RegistryModel && prev.perPage == 0 && |prev.data| > 0
    ensures |Receive(prev, a).data| == |prev.data|
  {
  }

  /** Successive registry audits show newest first. */
  lemma NewestFirst(prev: Listing, a: Audit, b: Audit)
    requires a.auditableType == RegistryModel && b.auditableType == RegistryModel && prev.perPage >= 2
    ensures Receive(Receive(prev, a), b).data[..2] == [b, a]
  {
    var once := Receive(prev, a);
    var twice := Receive(once, b);
    assert twice.data[1] == once.data[0];
  }

  /** The Changes column shows the old values of a deletion and the new values otherwise. */
  function Changes(a: Audit): (r: Option<Values>)
    ensures a.event == "deleted" ==> r == a.oldValues
    ensures a.event != "deleted" ==> r == a.newValues
  {
    if a.event != "deleted" then a.newValues else a.oldValues
  }

  /** The User column: the user's name, or "N/A" when there is none. */
  function UserColumn(a: Audit): (r: string)
    ensures a.user.Some? && a.user.value.name.Some? ==> r == a.user.value.name.value
    ensures a.user.None? || a.user.value.name.None? ==> r == "N/A"
  {
    match a.user
    case Some(AuditUser(Some(name))) => name
    case _ => "N/A"
  }
}

=== FILE: auth_props.dfy ===
/** The signed-in user as the pages receive it in their `auth` prop. */
module AuthProps {
  import opened Results

  /** Optional fields are those a page may find missing on the object. */
  datatype AuthUser = AuthUser(name: string, role: Option<string>, permissions: Option<seq<string>>)

  /** `auth.user?.permissions?.includes(p)`: a signed-in user whose permission list holds `p`. */
  predicate Can(user: Option<AuthUser>, p: string) {
    user.Some? && user.value.permissions.Some? && p in user.value.permissions.value
  }
}

=== FILE: dashboard.dfy ===
/**
 * DashboardController::index: headline counts, a twelve-month histogram of
 * `created_at` with empty months filled with zero, and the five newest rows.
 * `now` is the clock reading the controller takes.
 */
module Dashboard {
  import opened Lists
  import opened Sorting
  import opened Registry

  /** A `DATE_FORMAT(created_at, '%Y-%m')` bucket. */
  datatype Month = Month(year: int, month: MonthOfYear)

  function MonthOf(t: Timestamp): Month {
    Month(t.year, t.month)
  }

  /** Months counted from year 0: consecutive months have consecutive ordinals. */
  function Ordinal(m: Month): int {
    m.year * 12 + (m.month - 1)
  }

  function FromOrdinal(k: int): (m: Month)
    ensures Ordinal(m) == k
  {
    Month(k / 12, k % 12 + 1)
  }

  lemma OrdinalInjective(a: Month, b: Month)
    requires Ordinal(a) == Ordinal(b)
    ensures a == b
  {
  }

  /** `records_this_month`: rows created in the calendar month of `now`. */
  ghost function ThisMonth(s: Store, now: Timestamp): set<int> {
    set i | 0 <= i < |s| && MonthOf(s[i].createdAt) == MonthOf(now)
  }

  /** The distinct nationalities of the table. */
  ghost function Nationalities(s: Store): set<string> {
    set i | 0 <= i < |s| :: s[i].nationality
  }

  /** The rows created in one month. */
  ghost function InMonth(s: Store, m: Month): set<int> {
    set i | 0 <= i < |s| && MonthOf(s[i].createdAt) == m
  }

  /** `Carbon::now()->subMonths(12)`, without Carbon's day overflow. */
  function YearAgo(now: Timestamp): Timestamp {
    Timestamp(now.year - 1, now.month, now.second)
  }

  /** The rows the grouped query reads (`created_at >= now - 12 months`) that fall in month `m`. */
  function GroupedRows(s: Store, now: Timestamp, m: Month): set<int> {
    set i | 0 <= i < |s| && TimeLe(YearAgo(now), s[i].createdAt) && MonthOf(s[i].createdAt) == m
  }

  /** The grouped query: one entry per month that has rows since a year ago. */
  function Grouped(s: Store, now: Timestamp): (g: map<Month, nat>)
    ensures forall m :: m in g ==> g[m] == |GroupedRows(s, now, m)| && g[m] > 0
    ensures forall m :: m !in g ==> GroupedRows(s, now, m) == {}
  {
    var keys := set i | 0 <= i < |s| && TimeLe(YearAgo(now), s[i].createdAt) :: MonthOf(s[i].createdAt);
    assert forall m :: m in keys ==> |GroupedRows(s, now, m)| > 0 by {
      forall m | m in keys ensures |GroupedRows(s, now, m)| > 0 {
        var i :| 0 <= i < |s| && TimeLe(YearAgo(now), s[i].createdAt) && MonthOf(s[i].createdAt) == m;
        assert i in GroupedRows(s, now, m);
      }
    }
    map m | m in keys :: |GroupedRows(s, now, m)|
  }

  /** Every month of the window starts after the lower bound, so the bound drops none of its rows. */
  lemma WindowMonthFullyCounted(s: Store, now: Timestamp, m: Month)
    requires Ordinal(MonthOf(now)) - 11 <= Ordinal(m)
    ensures GroupedRows(s, now, m) == InMonth(s, m)
  {
    forall i | 0 <= i < |s| && MonthOf(s[i].createdAt) == m ensures TimeLe(YearAgo(now), s[i].createdAt) {
    }
  }

  /** The twelve months `now - 11 .. now` in ascending order, each with its count or 0. */
  method MonthlyWindow(s: Store, now: Timestamp) returns (w: seq<(Month, nat)>)
    ensures |w| == 12
    ensures forall k :: 0 <= k < 12 ==> Ordinal(w[k].0) == Ordinal(MonthOf(now)) - 11 + k
    ensures w[11].0 == MonthOf(now)
    ensures forall k :: 0 <= k < 12 ==> w[k].1 == |InMonth(s, w[k].0)|
  {
    var grouped := Grouped(s, now);
    w := [];
    var i := 11;
    while i >= 0
      invariant -1 <= i <= 11
      invariant |w| == 11 - i
      invariant forall k :: 0 <= k < |w| ==> Ordinal(w[k].0) == Ordinal(MonthOf(now)) - 11 + k
      invariant forall k :: 0 <= k < |w| ==> w[k].1 == |InMonth(s, w[k].0)|
    {
      var month := FromOrdinal(Ordinal(MonthOf(now)) - i);
      var count := if month in grouped then grouped[month] else 0;
      WindowMonthFullyCounted(s, now, month);
      w := w + [(month, count)];
      i := i - 1;
    }
    OrdinalInjective(w[11].0, MonthOf(now));
  }

  /**
   * A month outside the window gets no entry, even when the grouped query
   * counted rows in it: the partial month a year back is read and dropped.
   */
  lemma OutsideWindowDropped(w: seq<(Month, nat)>, now: Timestamp, m: Month)
    requires |w| == 12
    requires forall k :: 0 <= k < 12 ==> Ordinal(w[k].0) == Ordinal(MonthOf(now)) - 11 + k
    requires Ordinal(m) < Ordinal(MonthOf(now)) - 11 || Ordinal(MonthOf(now)) < Ordinal(m)
    ensures forall k :: 0 <= k < 12 ==> w[k].0 != m
  {
  }

  /** The month a year back is in the grouped result whenever a row falls in it after the bound. */
  lemma YearAgoMonthGrouped(s: Store, now: Timestamp, i: int)
    requires 0 <= i < |s|
    requires MonthOf(s[i].createdAt) == MonthOf(YearAgo(now))
    requires TimeLe(YearAgo(now), s[i].createdAt)
    ensures MonthOf(YearAgo(now)) in Grouped(s, now)
    ensures Ordinal(MonthOf(YearAgo(now))) == Ordinal(MonthOf(now)) - 12
  {
    assert i in GroupedRows(s, now, MonthOf(YearAgo(now)));
  }

  /** The day of the month of a timestamp, counted from 1. */
  function DayOf(t: Timestamp): int {
    t.second / 86400 + 1
  }

  predicate LeapYear(y: int) {
    y % 4 == 0 && (y % 100 != 0 || y % 400 == 0)
  }

  function DaysIn(m: Month): (n: int)
    ensures 28 <= n <= 31
  {
    if m.month == 2 then (if LeapYear(m.year) then 29 else 28)
    else if m.month == 4 || m.month == 6 || m.month == 9 || m.month == 11 then 30
    else 31
  }

  /**
   * The bucket of `Carbon::now()->subMonths(i)`: Carbon keeps the day of the
   * month, and a day the target month lacks runs over into the month after.
   */
  function SubMonthsKey(now: Timestamp, i: int): (m: Month)
    requires 0 <= i <= 11
    ensures Ordinal(MonthOf(now)) - i <= Ordinal(m) <= Ordinal(MonthOf(now)) - i + 1
    ensures DayOf(now) <= 28 ==> Ordinal(m) == Ordinal(MonthOf(now)) - i
  {
    var target := if now.month > i then Month(now.year, now.month - i) else Month(now.year - 1, now.month - i + 12);
    if DayOf(now) <= DaysIn(target) then target
    else if target.month == 12 then Month(target.year + 1, 1)
    else Month(target.year, target.month + 1)
  }

  /** The keys of a PHP array held as its entries in insertion order. */
  function Keys(a: seq<(Month, nat)>): set<Month> {
    set j | 0 <= j < |a| :: a[j].0
  }

  predicate KeysDistinct(a: seq<(Month, nat)>) {
    forall i, j :: 0 <= i < j < |a| ==> a[i].0 != a[j].0
  }

  lemma KeysCons(x: (Month, nat), a: seq<(Month, nat)>)
    ensures Keys([x] + a) == {x.0} + Keys(a)
  {
    var b := [x] + a;
    forall m ensures m in Keys(b) <==> m in {x.0} + Keys(a) {
      if m == x.0 {
        assert b[0].0 == m;
      }
      if m in Keys(a) {
        var j :| 0 <= j < |a| && a[j].0 == m;
        assert b[j + 1].0 == m;
      }
      if m in Keys(b) {
        var j :| 0 <= j < |b| && b[j].0 == m;
        if j > 0 {
          assert a[j - 1].0 == m;
        }
      }
    }
  }

  /** `$a[$k] = $v`: an existing key keeps its place and takes the value, a new key goes last. */
  function Put(a: seq<(Month, nat)>, k: Month, v: nat): (r: seq<(Month, nat)>)
    ensures Keys(r) == Keys(a) + {k}
    ensures KeysDistinct(a) ==> KeysDistinct(r)
    ensures k in Keys(a) ==> |r| == |a|
    ensures k !in Keys(a) ==> r == a + [(k, v)]
    ensures forall j :: 0 <= j < |r| ==> r[j] == (k, v) || r[j] in a
  {
    if |a| == 0 then
      KeysCons((k, v), []);
      [(k, v)]
    else
      assert a == [a[0]] + a[1..];
      KeysCons(a[0], a[1..]);
      if a[0].0 == k then
        KeysCons((k, v), a[1..]);
        [(k, v)] + a[1..]
      else
        var rest := Put(a[1..], k, v);
        KeysCons(a[0], rest);
        [a[0]] + rest
  }

  /** The count the zero-filling loop writes for a key: the grouped count, or 0. */
  function Filled(grouped: map<Month, nat>, m: Month): nat {
    if m in grouped then grouped[m] else 0
  }

  /** The keys the loop writes for `$i` below `n`. */
  function KeySet(now: Timestamp, n: int): set<Month>
    requires n <= 12
    decreases n
  {
    if n <= 0 then {} else KeySet(now, n - 1) + {SubMonthsKey(now, n - 1)}
  }

  lemma NoneBefore(all: set<Month>, before: set<Month>, added: set<Month>)
    requires all == before + added && before == {}
    ensures all == added
  {
  }

  lemma FilledIsGrouped(s: Store, now: Timestamp, m: Month)
    ensures Filled(Grouped(s, now), m) == |GroupedRows(s, now, m)|
  {
  }

  /** The zero-filling loop from `$i = i` down to 0, as written. */
  function FillFrom(grouped: map<Month, nat>, now: Timestamp, i: int, w: seq<(Month, nat)>): (r: seq<(Month, nat)>)
    requires i <= 11
    decreases i + 1
    ensures Keys(r) == Keys(w) + KeySet(now, i + 1)
    ensures KeysDistinct(w) ==> KeysDistinct(r)
    ensures (forall j :: 0 <= j < |w| ==> w[j].1 == Filled(grouped, w[j].0)) ==>
              forall j :: 0 <= j < |r| ==> r[j].1 == Filled(grouped, r[j].0)
  {
    if i < 0 then
      w
    else
      var key := SubMonthsKey(now, i);
      FillFrom(grouped, now, i - 1, Put(w, key, Filled(grouped, key)))
  }

  /**
   * The `$months` array the controller builds, as written: one entry per
   * distinct key `subMonths($i)->format('Y-m')`, in first-write order.
   */
  function MonthlyWindowAsWritten(s: Store, now: Timestamp): (w: seq<(Month, nat)>)
    ensures KeysDistinct(w)
    ensures Keys(w) == KeySet(now, 12)
    ensures forall j :: 0 <= j < |w| ==> w[j].1 == |GroupedRows(s, now, w[j].0)|
  {
    var none: seq<(Month, nat)> := [];
    var w := FillFrom(Grouped(s, now), now, 11, none);
    assert Keys(none) == {};
    NoneBefore(Keys(w), Keys(none), KeySet(now, 12));
    forall j | 0 <= j < |w| ensures w[j].1 == |GroupedRows(s, now, w[j].0)| {
      FilledIsGrouped(s, now, w[j].0);
    }
    w
  }

  /** An array with distinct keys has as many entries as keys. */
  lemma {:induction false} DistinctKeysCount(a: seq<(Month, nat)>)
    requires KeysDistinct(a)
    ensures |a| == |Keys(a)|
  {
    if |a| > 0 {
      var init := a[..|a| - 1];
      DistinctKeysCount(init);
      assert Keys(a) == Keys(init) + {a[|a| - 1].0} by {
        assert forall j :: 0 <= j < |init| ==> init[j] == a[j];
      }
      assert a[|a| - 1].0 !in Keys(init);
    }
  }

  /** Up to day 28 the loop as written fills the twelve consecutive months. */
  lemma {:induction false} FillFromEarlyDays(grouped: map<Month, nat>, now: Timestamp, i: int, w: seq<(Month, nat)>)
    requires DayOf(now) <= 28 && -1 <= i <= 11
    requires |w| == 11 - i
    requires forall k :: 0 <= k < |w| ==> Ordinal(w[k].0) == Ordinal(MonthOf(now)) - 11 + k
    ensures var r := FillFrom(grouped, now, i, w);
      |r| == 12 && forall k :: 0 <= k < 12 ==> Ordinal(r[k].0) == Ordinal(MonthOf(now)) - 11 + k
  {
    if i >= 0 {
      var key := SubMonthsKey(now, i);
      assert key !in Keys(w);
      FillFromEarlyDays(grouped, now, i - 1, Put(w, key, Filled(grouped, key)));
    }
  }

  /** On days 1 to 28 the window as written is the twelve months `now - 11 .. now`. */
  lemma WindowAsWrittenEarlyDays(s: Store, now: Timestamp)
    requires DayOf(now) <= 28
    ensures var w := MonthlyWindowAsWritten(s, now);
      |w| == 12 && forall k :: 0 <= k < 12 ==> Ordinal(w[k].0) == Ordinal(MonthOf(now)) - 11 + k
  {
    FillFromEarlyDays(Grouped(s, now), now, 11, []);
  }

  const MonthEnd := Timestamp(2025, 3, 30 * 86400)

  /** The twelve keys on 31 March 2025, for `$i` = 0 .. 11. */
  const MonthEndKeys := [
    Month(2025, 3), Month(2025, 3), Month(2025, 1), Month(2024, 12), Month(2024, 12), Month(2024, 10),
    Month(2024, 10), Month(2024, 8), Month(2024, 7), Month(2024, 7), Month(2024, 5), Month(2024, 5)]

  lemma MonthEndKey()
    ensures forall k :: 0 <= k < 12 ==> SubMonthsKey(MonthEnd, k) == MonthEndKeys[k]
  {
  }

  lemma MonthEndKeySet()
    ensures KeySet(MonthEnd, 12) == {Month(2025, 3), Month(2025, 1), Month(2024, 12), Month(2024, 10), Month(2024, 8), Month(2024, 7), Month(2024, 5)}
    ensures |KeySet(MonthEnd, 12)| == 7 && Month(2025, 2) !in KeySet(MonthEnd, 12)
  {
    MonthEndKey();
    assert KeySet(MonthEnd, 2) == {Month(2025, 3)};
    assert KeySet(MonthEnd, 4) == {Month(2025, 3), Month(2025, 1), Month(2024, 12)};
    assert KeySet(MonthEnd, 5) == {Month(2025, 3), Month(2025, 1), Month(2024, 12)};
    assert KeySet(MonthEnd, 7) == {Month(2025, 3), Month(2025, 1), Month(2024, 12), Month(2024, 10)};
    assert KeySet(MonthEnd, 9) == {Month(2025, 3), Month(2025, 1), Month(2024, 12), Month(2024, 10), Month(2024, 8), Month(2024, 7)};
    assert KeySet(MonthEnd, 10) == {Month(2025, 3), Month(2025, 1), Month(2024, 12), Month(2024, 10), Month(2024, 8), Month(2024, 7)};
  }

  /**
   * On 31 March 2025 the keys repeat: the window as written has seven
   * entries, and February 2025 is not among them.
   */
  lemma MonthEndWindowCollapses(s: Store)
    ensures var w := MonthlyWindowAsWritten(s, MonthEnd);
      |w| == 7 && Month(2025, 2) !in Keys(w)
  {
    var w := MonthlyWindowAsWritten(s, MonthEnd);
    MonthEndKeySet();
    assert Keys(w) == {Month(2025, 3), Month(2025, 1), Month(2024, 12), Month(2024, 10), Month(2024, 8), Month(2024, 7), Month(2024, 5)};
    DistinctKeysCount(w);
  }

  /** One entry of the recent list: the six selected columns. */
  datatype Recent = Recent(id: nat, surname: string, givenName: string, nationality: string, travelDate: string, createdAt: Timestamp)

  function Summary(r: Record): Recent {
    Recent(r.id, r.surname, r.givenName, r.nationality, r.travelDate, r.createdAt)
  }

  function NewestFirst(): (Record, Record) -> bool {
    (a: Record, b: Record) => TimeLe(b.createdAt, a.createdAt)
  }

  lemma NewestFirstOrders()
    ensures TotalPreorder(NewestFirst())
  {
  }

  /** `orderBy('created_at', 'desc')->take(5)`: at most five stored rows, newest first. */
  function NewestRows(s: Store): (top: seq<Record>)
    ensures |top| == if |s| < 5 then |s| else 5
    ensures multiset(top) <= multiset(s)
    ensures forall i, j :: 0 <= i < j < |top| ==> TimeLe(top[j].createdAt, top[i].createdAt)
    ensures forall x :: x in s ==> x in top || forall i :: 0 <= i < |top| ==> TimeLe(x.createdAt, top[i].createdAt)
  {
    NewestFirstOrders();
    var sorted := Sort(s, NewestFirst());
    var n := if |s| < 5 then |s| else 5;
    TakeNewest(s, sorted, n);
    sorted[..n]
  }

  /** The first `n` rows of the newest-first order are `n` newest rows, each taken as often as it is stored at most. */
  lemma TakeNewest(s: Store, sorted: seq<Record>, n: nat)
    requires multiset(sorted) == multiset(s)
    requires SortedBy(sorted, NewestFirst())
    requires n <= |sorted|
    ensures multiset(sorted[..n]) <= multiset(s)
    ensures forall x :: x in s ==> x in sorted[..n] || forall i :: 0 <= i < n ==> TimeLe(x.createdAt, sorted[i].createdAt)
  {
    assert sorted == sorted[..n] + sorted[n..];
    forall x | x in s ensures x in sorted[..n] || forall i :: 0 <= i < n ==> TimeLe(x.createdAt, sorted[i].createdAt) {
      assert x in multiset(sorted);
      var j :| 0 <= j < |sorted| && sorted[j] == x;
      if j >= n {
        forall i | 0 <= i < n ensures TimeLe(x.createdAt, sorted[i].createdAt) {
          assert NewestFirst()(sorted[i], sorted[j]);
        }
      } else {
        assert sorted[..n][j] == x;
      }
    }
  }

  /** The recent list: the newest rows, each cut down to the six selected columns. */
  function RecentRecords(s: Store): (rows: seq<Recent>)
    ensures |rows| == |NewestRows(s)|
    ensures forall i :: 0 <= i < |rows| ==> rows[i] == Summary(NewestRows(s)[i])
    ensures |rows| == if |s| < 5 then |s| else 5
    ensures forall i, j :: 0 <= i < j < |rows| ==> TimeLe(rows[j].createdAt, rows[i].createdAt)
  {
    var top := NewestRows(s);
    seq(|top|, i requires 0 <= i < |top| => Summary(top[i]))
  }

  /** The data the dashboard renders. */
  datatype Metrics = Metrics(
    totalRecords: nat,
    recordsThisMonth: nat,
    uniqueNationalities: nat,
    monthlyRecords: seq<(Month, nat)>,
    recentRecords: seq<Recent>)

  method CountThisMonth(s: Store, now: Timestamp) returns (n: nat)
    ensures n == |ThisMonth(s, now)|
  {
    n := 0;
    var i := 0;
    while i < |s|
      invariant 0 <= i <= |s|
      invariant n == |set j | 0 <= j < i && MonthOf(s[j].createdAt) == MonthOf(now)|
    {
      ghost var before := set j | 0 <= j < i && MonthOf(s[j].createdAt) == MonthOf(now);
      if MonthOf(s[i].createdAt) == MonthOf(now) {
        assert (set j | 0 <= j < i + 1 && MonthOf(s[j].createdAt) == MonthOf(now)) == before + {i};
        n := n + 1;
      } else {
        assert (set j | 0 <= j < i + 1 && MonthOf(s[j].createdAt) == MonthOf(now)) == before;
      }
      i := i + 1;
    }
    assert (set j | 0 <= j < i && MonthOf(s[j].createdAt) == MonthOf(now)) == ThisMonth(s, now);
  }

  method CountNationalities(s: Store) returns (n: nat)
    ensures n == |Nationalities(s)|
  {
    var seen: set<string> := {};
    var i := 0;
    while i < |s|
      invariant 0 <= i <= |s|
      invariant seen == set j | 0 <= j < i :: s[j].nationality
    {
      assert (set j | 0 <= j < i + 1 :: s[j].nationality) == seen + {s[i].nationality};
      seen := seen + {s[i].nationality};
      i := i + 1;
    }
    n := |seen|;
  }

  /** `index`. */
  method Index(s: Store, now: Timestamp) returns (d: Metrics)
    ensures d.totalRecords == |s|
    ensures d.recordsThisMonth == |ThisMonth(s, now)|
    ensures d.uniqueNationalities == |Nationalities(s)|
    ensures |d.monthlyRecords| == 12 && d.monthlyRecords[11].0 == MonthOf(now)
    ensures forall k :: 0 <= k < 12 ==> Ordinal(d.monthlyRecords[k].0) == Ordinal(MonthOf(now)) - 11 + k
    ensures forall k :: 0 <= k < 12 ==> d.monthlyRecords[k].1 == |InMonth(s, d.monthlyRecords[k].0)|
    ensures d.recentRecords == RecentRecords(s)
  {
    var thisMonth := CountThisMonth(s, now);
    var nationalities := CountNationalities(s);
    var monthly := MonthlyWindow(s, now);
    d := Metrics(|s|, thisMonth, nationalities, monthly, RecentRecords(s));
  }
}

=== FILE: default_admin.dfy ===
/**
 * The migration that seeds the default administrator: `up` inserts the
 * account only when no user already has its email, `down` deletes every
 * user with that email.
 */
module DefaultAdmin {
  import opened Results
  import opened Accounts

  const AdminEmail := "htevilili@vanuatu.gov.vu"
  const AdminName := "Herman Tevilili"
  const AdminPassword := "Admin123!"

  /** The user `up` creates when it has to, under the next id. */
  function AdminUser(id: nat): User {
    User(id, AdminName, AdminEmail, None, HashMake(AdminPassword), "admin")
  }

  function Up(u: Users): (r: Users)
    requires Valid(u)
    ensures Valid(r)
    ensures EmailTaken(r, AdminEmail)
    ensures EmailTaken(u, AdminEmail) ==> r == u
    ensures !EmailTaken(u, AdminEmail) ==>
      && r.byId.Keys == u.byId.Keys + {u.nextId}
      && u.nextId !in u.byId
      && |r.byId| == |u.byId| + 1
      && r.byId[u.nextId].name == AdminName
      && r.byId[u.nextId].role == "admin"
      && HashCheck(AdminPassword, r.byId[u.nextId].password)
    ensures forall id :: id in u.byId ==> id in r.byId && r.byId[id] == u.byId[id]
  {
    if EmailTaken(u, AdminEmail) then u
    else
      assert u.nextId !in u.byId;
      var r := Users(u.byId[u.nextId := AdminUser(u.nextId)], u.nextId + 1);
      assert r.byId[u.nextId].email == AdminEmail;
      r
  }

  /** Running `up` a second time changes nothing. */
  lemma UpIdempotent(u: Users)
    requires Valid(u)
    ensures Up(Up(u)) == Up(u)
    ensures |Up(Up(u)).byId| <= |u.byId| + 1
  {
  }

  function Down(u: Users): (r: Users)
    ensures r.nextId == u.nextId
    ensures forall id :: id in r.byId <==> id in u.byId && u.byId[id].email != AdminEmail
    ensures forall id :: id in r.byId ==> r.byId[id] == u.byId[id]
    ensures !EmailTaken(r, AdminEmail)
  {
    Users(map id | id in u.byId && u.byId[id].email != AdminEmail :: u.byId[id], u.nextId)
  }

  /** On a store without the default admin, `down` undoes `up` (the id counter stays advanced). */
  lemma DownUndoesUp(u: Users)
    requires Valid(u) && !EmailTaken(u, AdminEmail)
    ensures Down(Up(u)).byId == u.byId
  {
    var r := Down(Up(u));
    forall id | id in u.byId
      ensures id in r.byId && r.byId[id] == u.byId[id]
    {
      assert u.byId[id].email != AdminEmail;
    }
  }
}

=== FILE: groups.dfy ===
/**
 * The role ("group") store behind GroupController: roles carry a unique
 * name and a set of permission names drawn from the permission catalogue.
 */
module Groups {
  import opened Results
  import opened Http
  import Lists

  datatype Role = Role(name: string, permissions: set<string>)

  /** The roles by id, and the next auto-increment id. */
  datatype Roles = Roles(byId: map<nat, Role>, nextId: nat)

  predicate Valid(g: Roles) {
    forall id :: id in g.byId ==> id < g.nextId
  }

  /** No two roles share a name. */
  predicate UniqueNames(g: Roles) {
    forall a, b :: a in g.byId && b in g.byId && a != b ==> g.byId[a].name != g.byId[b].name
  }

  /** The `unique:roles,name[,except]` rule fails: another role already has `name`. */
  predicate NameTaken(g: Roles, name: string, except: Option<nat>) {
    exists id :: id in g.byId && Some(id) != except && g.byId[id].name == name
  }

  predicate ValidName(g: Roles, p: Param, except: Option<nat>) {
    RequiredString(p, 255) && !NameTaken(g, p.value, except)
  }

  datatype GroupError =
    | NotFound
    | ValidationFailed(fields: seq<string>)
    | UnknownPermissions(names: seq<string>)

  /** `store`: create a role without permissions under the next id. */
  function Store(g: Roles, name: Param): (r: Result<Roles, GroupError>)
    requires Valid(g)
    ensures r.Ok? <==> ValidName(g, name, None)
    ensures r.Err? ==> r.error == ValidationFailed(["name"])
    ensures r.Ok? ==> Valid(r.value) && r.value.byId.Keys == g.byId.Keys + {g.nextId} && g.nextId !in g.byId
    ensures r.Ok? ==> r.value.byId[g.nextId] == Role(name.value, {})
    ensures r.Ok? ==> forall id :: id in g.byId ==> r.value.byId[id] == g.byId[id]
    ensures r.Ok? && UniqueNames(g) ==> UniqueNames(r.value)
  {
    if !ValidName(g, name, None) then Err(ValidationFailed(["name"]))
    else Ok(Roles(g.byId[g.nextId := Role(name.value, {})], g.nextId + 1))
  }

  /** `update`: rename a role; its own current name does not count as taken. */
  function Update(g: Roles, id: nat, name: Param): (r: Result<Roles, GroupError>)
    ensures id !in g.byId <==> r == Err(NotFound)
    ensures r.Ok? <==> id in g.byId && ValidName(g, name, Some(id))
    ensures id in g.byId && !ValidName(g, name, Some(id)) ==> r == Err(ValidationFailed(["name"]))
    ensures r.Ok? ==> r.value.byId.Keys == g.byId.Keys && r.value.nextId == g.nextId
    ensures r.Ok? ==> forall other :: other in g.byId && other != id ==> r.value.byId[other] == g.byId[other]
    ensures r.Ok? ==> r.value.byId[id] == g.byId[id].(name := name.value)
    ensures r.Ok? && Valid(g) ==> Valid(r.value)
    ensures r.Ok? && UniqueNames(g) ==> UniqueNames(r.value)
  {
    if id !in g.byId then Err(NotFound)
    else if !ValidName(g, name, Some(id)) then Err(ValidationFailed(["name"]))
    else Ok(g.(byId := g.byId[id := g.byId[id].(name := name.value)]))
  }

  /** A role may always be renamed to the name it already has. */
  lemma RenameToSelfAllowed(g: Roles, id: nat)
    requires UniqueNames(g) && id in g.byId
    requires RequiredString(Given(g.byId[id].name), 255)
    ensures Update(g, id, Given(g.byId[id].name)) == Ok(g)
  {
    assert !NameTaken(g, g.byId[id].name, Some(id));
    assert g.byId[id := g.byId[id].(name := g.byId[id].name)] == g.byId;
  }

  /** `destroy`: remove exactly that role. */
  function Destroy(g: Roles, id: nat): (r: Result<Roles, GroupError>)
    ensures id !in g.byId <==> r == Err(NotFound)
    ensures r.Ok? <==> id in g.byId
    ensures r.Ok? ==> r.value.byId.Keys == g.byId.Keys - {id} && r.value.nextId == g.nextId
    ensures r.Ok? && Valid(g) ==> Valid(r.value)
    ensures r.Ok? ==> forall other :: other in r.value.byId ==> r.value.byId[other] == g.byId[other]
    ensures r.Ok? && UniqueNames(g) ==> UniqueNames(r.value)
  {
    if id !in g.byId then Err(NotFound)
    else Ok(g.(byId := g.byId - {id}))
  }

  /** The `permissions` field of an assignment request. */
  datatype PermissionsInput = Missing | NotArray | Names(names: seq<string>)

  /** The requested names that are not in the permission catalogue. */
  function Unknown(names: seq<string>, catalogue: set<string>): (r: seq<string>)
    ensures forall n :: n in r <==> n in names && n !in catalogue
  {
    Lists.FilterMembers(names, n => n !in catalogue);
    Lists.Filter(names, n => n !in catalogue)
  }

  /**
   * `assignPermissions`: every name must exist; the role's permissions are
   * then replaced by exactly the requested ones (a missing field clears them).
   */
  function AssignPermissions(g: Roles, id: nat, input: PermissionsInput, catalogue: set<string>)
    : (r: Result<Roles, GroupError>)
    ensures id !in g.byId <==> r == Err(NotFound)
    ensures id in g.byId && input.NotArray? ==> r == Err(ValidationFailed(["permissions"]))
    ensures r.Err? && r.error.UnknownPermissions? ==>
      input.Names? && |r.error.names| > 0 && forall n :: n in r.error.names <==> n in input.names && n !in catalogue
    ensures r.Ok? <==> id in g.byId && (input.Missing? || (input.Names? && forall n :: n in input.names ==> n in catalogue))
    ensures r.Ok? ==> r.value.byId.Keys == g.byId.Keys && r.value.nextId == g.nextId
    ensures r.Ok? ==> forall other :: other in g.byId && other != id ==> r.value.byId[other] == g.byId[other]
    ensures r.Ok? ==> r.value.byId[id].name == g.byId[id].name
    ensures r.Ok? ==> r.value.byId[id].permissions == (if input.Names? then set n | n in input.names else {})
    ensures r.Ok? ==> r.value.byId[id].permissions <= catalogue
    ensures r.Ok? && Valid(g) ==> Valid(r.value)
    ensures r.Ok? && UniqueNames(g) ==> UniqueNames(r.value)
  {
    if id !in g.byId then Err(NotFound)
    else match input
      case NotArray => Err(ValidationFailed(["permissions"]))
      case Missing => Ok(g.(byId := g.byId[id := g.byId[id].(permissions := {})]))
      case Names(names) =>
        var unknown := Unknown(names, catalogue);
        if |unknown| > 0 then
          assert unknown[0] in names && unknown[0] !in catalogue;
          Err(UnknownPermissions(unknown))
        else
          Ok(g.(byId := g.byId[id := g.byId[id].(permissions := set n | n in names)]))
  }

  /** Assigning the same permissions twice is the same as assigning them once. */
  lemma AssignPermissionsIdempotent(g: Roles, id: nat, input: PermissionsInput, catalogue: set<string>)
    requires AssignPermissions(g, id, input, catalogue).Ok?
    ensures AssignPermissions(AssignPermissions(g, id, input, catalogue).value, id, input, catalogue)
      == AssignPermissions(g, id, input, catalogue)
  {
    var once := AssignPermissions(g, id, input, catalogue).value;
    var twice := AssignPermissions(once, id, input, catalogue);
    assert twice.Ok?;
    assert twice.value.byId == once.byId;
  }
}

=== FILE: groups_page.dfy ===
/**
 * The group management page: the access gate, the create and edit forms and
 * the permission checkboxes, whose selection is posted to the role store.
 */
module GroupsPage {
  import opened Results
  import opened Http
  import Lists
  import opened AuthProps
  import Sidebar
  import Groups

  /** A role as listed on the page, with its permission names in order. */
  datatype GroupView = GroupView(id: nat, name: string, permissions: seq<string>)

  datatype Page = Page(newGroupName: string, editing: Option<GroupView>, selected: seq<string>)

  /** The page shows "Access Denied" instead of its content. */
  predicate Denied(user: Option<AuthUser>) {
    !Can(user, Sidebar.GroupsPermission)
  }

  /** The page is reachable from the sidebar exactly when it grants access. */
  lemma GateMatchesSidebar(user: Option<AuthUser>)
    ensures Sidebar.MainNavItems[3] in Sidebar.MainNav(user) <==> !Denied(user)
  {
  }

  /** `handleEditGroup`: open the group for editing with its current permissions ticked. */
  function EditGroup(p: Page, g: GroupView): (r: Page)
    ensures r.editing == Some(g) && r.selected == g.permissions && r.newGroupName == p.newGroupName
  {
    p.(editing := Some(g), selected := g.permissions)
  }

  /** `togglePermission`. */
  function TogglePermission(p: Page, name: string): (r: Page)
    ensures name in p.selected ==> r.selected == Lists.Remove(p.selected, name)
    ensures name !in p.selected ==> r.selected == p.selected + [name]
    ensures r == p.(selected := r.selected)
  {
    p.(selected := Lists.Toggle(p.selected, name))
  }

  /** The permission set a selection stands for. */
  function Chosen(selected: seq<string>): set<string> {
    set n | n in selected
  }

  lemma ToggleFlipsChoice(p: Page, name: string)
    ensures Chosen(TogglePermission(p, name).selected)
      == if name in p.selected then Chosen(p.selected) - {name} else Chosen(p.selected) + {name}
  {
  }

  /** `handleAssignPermissions`: the request carries the role and the selection unchanged. */
  datatype Assignment = Assignment(roleId: nat, permissions: seq<string>)

  function AssignPermissions(p: Page, g: GroupView): (r: Assignment)
    ensures r.roleId == g.id && r.permissions == p.selected
  {
    Assignment(g.id, p.selected)
  }

  /** The listing of a stored role. */
  predicate Shows(g: Groups.Roles, view: GroupView) {
    view.id in g.byId && g.byId[view.id].name == view.name && Chosen(view.permissions) == g.byId[view.id].permissions
  }

  /**
   * Opening a listed role and saving its permissions without ticking anything
   * leaves the role store as it was.
   */
  lemma EditThenAssignKeepsRole(g: Groups.Roles, view: GroupView, p: Page, catalogue: set<string>)
    requires Shows(g, view) && g.byId[view.id].permissions <= catalogue
    ensures var sent := AssignPermissions(EditGroup(p, view), view);
      Groups.AssignPermissions(g, sent.roleId, Groups.Names(sent.permissions), catalogue) == Ok(g)
  {
    var sent := AssignPermissions(EditGroup(p, view), view);
    var r := Groups.AssignPermissions(g, sent.roleId, Groups.Names(sent.permissions), catalogue);
    assert r.Ok?;
    assert r.value.byId[view.id] == g.byId[view.id];
    assert r.value.byId == g.byId;
  }

  /** Whatever a disabled button withholds, the server would also have rejected. */
  predicate CreateDisabled(p: Page) {
    p.newGroupName == ""
  }

  predicate UpdateDisabled(p: Page) {
    p.editing.Some? && p.editing.value.name == ""
  }

  lemma DisabledButtonsMatchServer(g: Groups.Roles, p: Page)
    ensures CreateDisabled(p) ==> !Groups.ValidName(g, Given(p.newGroupName), None)
    ensures UpdateDisabled(p) ==> !Groups.ValidName(g, Given(p.editing.value.name), Some(p.editing.value.id))
  {
  }
}

=== FILE: http.dfy ===
/**
 * Request parameters as the framework hands them to a controller, and the
 * handful of validation rules the controllers share.
 */
module Http {

  /** One request field: missing from the request, explicitly null, or a string. */
  datatype Param = Absent | Null | Given(value: string)

  /** The characters PHP's `trim` strips. */
  predicate TrimmedChar(c: char) {
    c == ' ' || c == '\t' || c == '\n' || c == '\r' || c == '\0' || c == '\U{000B}'
  }

  /** A string that is empty once trimmed. */
  predicate Blank(s: string) {
    forall i :: 0 <= i < |s| ==> TrimmedChar(s[i])
  }

  /** Where `trim` starts cutting nothing: the first untrimmed character at or after `i`. */
  function LeadFrom(s: string, i: nat): (k: nat)
    requires i <= |s|
    ensures i <= k <= |s|
    ensures forall j :: i <= j < k ==> TrimmedChar(s[j])
    ensures k < |s| ==> !TrimmedChar(s[k])
    decreases |s| - i
  {
    if i < |s| && TrimmedChar(s[i]) then LeadFrom(s, i + 1) else i
  }

  /** Where `trim` stops keeping: just past the last untrimmed character below `e`, and not below `i`. */
  function TailDownFrom(s: string, i: nat, e: nat): (k: nat)
    requires i <= e <= |s|
    ensures i <= k <= e
    ensures forall j :: k <= j < e ==> TrimmedChar(s[j])
    ensures k > i ==> !TrimmedChar(s[k - 1])
    decreases e
  {
    if e > i && TrimmedChar(s[e - 1]) then TailDownFrom(s, i, e - 1) else e
  }

  /** `t` is the infix of `s` at `i`, and only trimmed characters lie around it. */
  predicate TrimmedAround(s: string, t: string, i: int) {
    && 0 <= i <= |s| - |t| && t == s[i..i + |t|]
    && (forall j :: 0 <= j < i ==> TrimmedChar(s[j]))
    && (forall j :: i + |t| <= j < |s| ==> TrimmedChar(s[j]))
  }

  /**
   * PHP's `trim`: an infix of `s` that neither starts nor ends with a
   * trimmed character, and everything cut off on either side is trimmed.
   */
  function Trim(s: string): (t: string)
    ensures exists i :: TrimmedAround(s, t, i)
    ensures |t| > 0 ==> !TrimmedChar(t[0]) && !TrimmedChar(t[|t| - 1])
    ensures t == "" <==> Blank(s)
  {
    var i := LeadFrom(s, 0);
    var e := TailDownFrom(s, i, |s|);
    TrimBlank(s, i, e);
    assert TrimmedAround(s, s[i..e], i);
    s[i..e]
  }

  /** What is left between the two cuts is empty iff the string is blank. */
  lemma TrimBlank(s: string, i: nat, e: nat)
    requires i <= e <= |s|
    requires forall j :: 0 <= j < i ==> TrimmedChar(s[j])
    requires forall j :: e <= j < |s| ==> TrimmedChar(s[j])
    requires i < |s| ==> !TrimmedChar(s[i])
    ensures i == e <==> Blank(s)
  {
    if i == e {
      forall j | 0 <= j < |s| ensures TrimmedChar(s[j]) {
        assert j < i || e <= j;
      }
    }
  }

  /** A string with no trimmed character at either end is its own trim. */
  lemma TrimKeepsPlain(s: string)
    requires |s| > 0 ==> !TrimmedChar(s[0]) && !TrimmedChar(s[|s| - 1])
    ensures Trim(s) == s
  {
  }

  lemma TrimIdempotent(s: string)
    ensures Trim(Trim(s)) == Trim(s)
  {
    TrimKeepsPlain(Trim(s));
  }

  /**
   * A request field as the framework's global middleware hands it to a
   * controller: TrimStrings trims every string except the password fields,
   * then ConvertEmptyStringsToNull turns what is left empty into null.
   */
  function Arrive(p: Param, trims: bool): (q: Param)
    ensures q.Absent? <==> p.Absent?
    ensures q.Given? ==> q.value != ""
    ensures trims ==> (q.Given? <==> p.Given? && !Blank(p.value))
    ensures trims && q.Given? ==> !TrimmedChar(q.value[0]) && !TrimmedChar(q.value[|q.value| - 1])
    ensures !trims ==> (q.Given? <==> p.Given? && p.value != "") && (q.Given? ==> q == p)
  {
    match p
    case Given(v) =>
      var t := if trims then Trim(v) else v;
      if t == "" then Null else Given(t)
    case _ => p
  }

  /** The middleware changes nothing the second time. */
  lemma ArriveIdempotent(p: Param, trims: bool)
    ensures Arrive(Arrive(p, trims), trims) == Arrive(p, trims)
  {
    if Arrive(p, trims).Given? && trims {
      TrimKeepsPlain(Arrive(p, trims).value);
    }
  }

  /** Laravel's `required` rule on a string field. */
  predicate Filled(p: Param) {
    p.Given? && !Blank(p.value)
  }

  /** `required` gives the same answer before and after the middleware. */
  lemma ArrivedFilled(p: Param, trims: bool)
    ensures Filled(Arrive(p, trims)) <==> Filled(p)
  {
  }

  /** Laravel's `required|string|max:n` rule. */
  predicate RequiredString(p: Param, n: nat) {
    Filled(p) && |p.value| <= n
  }

  /** PHP's `empty()` on a string value: the empty string and "0". */
  predicate PhpEmpty(s: string) {
    s == "" || s == "0"
  }

  /**
   * The names of the failing checks, in rule order: Laravel reports one
   * error per failing field.
   */
  function Failing(checks: seq<(string, bool)>): (r: seq<string>)
    ensures forall f :: f in r <==> exists i :: 0 <= i < |checks| && checks[i].0 == f && !checks[i].1
    ensures |r| == 0 <==> forall i :: 0 <= i < |checks| ==> checks[i].1
  {
    if |checks| == 0 then []
    else
      var rest := Failing(checks[1..]);
      assert forall i :: 1 <= i < |checks| ==> checks[i] == checks[1..][i - 1];
      if checks[0].1 then rest else [checks[0].0] + rest
  }
}

=== FILE: lists.dfy ===
/** Sequence helpers shared by the server queries and the client pages. */
module Lists {

  /** `a` is `b` with some elements dropped and the rest kept in order. */
  predicate IsSubsequence<T(==)>(a: seq<T>, b: seq<T>)
    decreases |b|
  {
    |a| == 0 || (|b| > 0 && ((a[0] == b[0] && IsSubsequence(a[1..], b[1..])) || IsSubsequence(a, b[1..])))
  }

  /** Array `filter`: the elements that satisfy `keep`, in their original order. */
  function Filter<T(==,!new)>(xs: seq<T>, keep: T -> bool): (r: seq<T>)
    ensures |r| <= |xs|
    decreases |xs|
  {
    if |xs| == 0 then []
    else
      var rest := Filter(xs[1..], keep);
      if keep(xs[0]) then [xs[0]] + rest else rest
  }

  /** Filtering keeps exactly the elements that satisfy `keep`. */
  lemma {:induction false} FilterMembers<T(!new)>(xs: seq<T>, keep: T -> bool)
    ensures forall i :: 0 <= i < |Filter(xs, keep)| ==> keep(Filter(xs, keep)[i])
    ensures forall y :: y in Filter(xs, keep) <==> y in xs && keep(y)
    decreases |xs|
  {
    if |xs| > 0 {
      FilterMembers(xs[1..], keep);
      assert xs == [xs[0]] + xs[1..];
    }
  }

  /** Filtering keeps every kept element exactly as often as it occurred, and no other. */
  lemma {:induction false} FilterCounts<T(!new)>(xs: seq<T>, keep: T -> bool)
    ensures forall y :: multiset(Filter(xs, keep))[y] == if keep(y) then multiset(xs)[y] else 0
    decreases |xs|
  {
    if |xs| > 0 {
      FilterCounts(xs[1..], keep);
      assert xs == [xs[0]] + xs[1..];
      assert multiset(xs) == multiset{xs[0]} + multiset(xs[1..]);
    }
  }

  /** A filter every element passes changes nothing. */
  lemma {:induction false} FilterKeepsAll<T(!new)>(xs: seq<T>, keep: T -> bool)
    requires forall x :: x in xs ==> keep(x)
    ensures Filter(xs, keep) == xs
    decreases |xs|
  {
    if |xs| > 0 {
      FilterKeepsAll(xs[1..], keep);
      assert xs == [xs[0]] + xs[1..];
    }
  }

  /** Filtering keeps the surviving elements in their original order. */
  lemma {:induction false} FilterSubsequence<T(!new)>(xs: seq<T>, keep: T -> bool)
    ensures IsSubsequence(Filter(xs, keep), xs)
    decreases |xs|
  {
    if |xs| > 0 {
      FilterSubsequence(xs[1..], keep);
      var rest := Filter(xs[1..], keep);
      if keep(xs[0]) {
        assert ([xs[0]] + rest)[1..] == rest;
      }
    }
  }

  /** A sequence without repeated elements. */
  predicate NoDuplicates<T(==)>(xs: seq<T>) {
    forall i, j :: 0 <= i < j < |xs| ==> xs[i] != xs[j]
  }

  /**
   * The checkbox toggle of the report and group pages: drop `x` when it is
   * selected, otherwise append it.
   */
  function Toggle<T(==,!new)>(xs: seq<T>, x: T): (r: seq<T>)
    ensures x in xs ==> r == Remove(xs, x)
    ensures x !in xs ==> r == xs + [x]
    ensures x in r <==> x !in xs
    ensures forall y :: y != x ==> (y in r <==> y in xs)
  {
    if x in xs then Remove(xs, x) else xs + [x]
  }

  /** Array `filter` dropping every occurrence of `x`. */
  function Remove<T(==,!new)>(xs: seq<T>, x: T): (r: seq<T>)
    ensures x !in r
    ensures forall y :: y != x ==> (y in r <==> y in xs)
    ensures IsSubsequence(r, xs)
  {
    FilterMembers(xs, y => y != x);
    FilterSubsequence(xs, y => y != x);
    Filter(xs, y => y != x)
  }

  /** Filtering out an absent element changes nothing. */
  lemma {:induction false} RemoveAbsent<T(!new)>(xs: seq<T>, x: T)
    requires x !in xs
    ensures Remove(xs, x) == xs
    decreases |xs|
  {
    if |xs| > 0 {
      RemoveAbsent(xs[1..], x);
      assert xs == [xs[0]] + xs[1..];
    }
  }

  lemma {:induction false} FilterAppend<T(!new)>(xs: seq<T>, ys: seq<T>, keep: T -> bool)
    ensures Filter(xs + ys, keep) == Filter(xs, keep) + Filter(ys, keep)
    decreases |xs|
  {
    if |xs| == 0 {
      assert xs + ys == ys;
    } else {
      var zs := xs + ys;
      assert zs[0] == xs[0] && zs[1..] == xs[1..] + ys;
      FilterAppend(xs[1..], ys, keep);
      if keep(xs[0]) {
        calc {
          Filter(zs, keep);
          [xs[0]] + Filter(xs[1..] + ys, keep);
          [xs[0]] + (Filter(xs[1..], keep) + Filter(ys, keep));
          ([xs[0]] + Filter(xs[1..], keep)) + Filter(ys, keep);
        }
      }
    }
  }

  /** Ticking a box and unticking it again restores the original selection. */
  lemma ToggleTwiceRestores<T(!new)>(xs: seq<T>, x: T)
    requires x !in xs
    ensures Toggle(Toggle(xs, x), x) == xs
  {
    FilterAppend(xs, [x], y => y != x);
    RemoveAbsent(xs, x);
    assert Filter([x], y => y != x) == [];
  }

  /** Filtering keeps a duplicate-free list duplicate-free. */
  lemma {:induction false} FilterNoDuplicates<T(!new)>(xs: seq<T>, keep: T -> bool)
    requires NoDuplicates(xs)
    ensures NoDuplicates(Filter(xs, keep))
    decreases |xs|
  {
    if |xs| > 0 {
      FilterNoDuplicates(xs[1..], keep);
      FilterMembers(xs[1..], keep);
      assert xs == [xs[0]] + xs[1..];
      assert xs[0] !in xs[1..];
    }
  }

  /** Toggling keeps a duplicate-free selection duplicate-free. */
  lemma ToggleNoDuplicates<T(!new)>(xs: seq<T>, x: T)
    requires NoDuplicates(xs)
    ensures NoDuplicates(Toggle(xs, x))
  {
    if x in xs {
      FilterNoDuplicates(xs, y => y != x);
    }
  }

  /** The elements of `xs` in order of first occurrence, each once. */
  function Distinct<T(==,!new)>(xs: seq<T>): (r: seq<T>)
    ensures NoDuplicates(r)
    ensures forall y :: y in r <==> y in xs
    ensures NoDuplicates(xs) ==> r == xs
    decreases |xs|
  {
    if |xs| == 0 then []
    else
      var init := xs[..|xs| - 1];
      var last := xs[|xs| - 1];
      assert xs == init + [last];
      var d := Distinct(init);
      if last in d then d else d + [last]
  }

  /** JavaScript's `xs.slice(0, end)`: a negative `end` counts from the back. */
  function SliceTo<T>(xs: seq<T>, end: int): (r: seq<T>)
    ensures 0 <= end ==> |r| == if end <= |xs| then end else |xs|
    ensures end < 0 ==> |r| == if |xs| + end < 0 then 0 else |xs| + end
    ensures r == xs[..|r|]
  {
    var stop := if end < 0 then (if |xs| + end < 0 then 0 else |xs| + end)
                else (if end > |xs| then |xs| else end);
    xs[..stop]
  }
}

=== FILE: registry.dfy ===
/**
 * The `registry` table (one row per border crossing) and the three
 * RegistryController actions that touch it: `index`, `update` and `destroy`.
 * The table is a sequence of rows in storage order; ids are distinct.
 */
module Registry {
  import opened Results
  import opened Http
  import opened Strings

  /** A calendar month number. */
  type MonthOfYear = m: int | 1 <= m <= 12 witness 1

  /** A `created_at`/`updated_at` value: year, month and second within the month. */
  datatype Timestamp = Timestamp(year: int, month: MonthOfYear, second: nat)

  /** Chronological order of timestamps. */
  predicate TimeLe(a: Timestamp, b: Timestamp) {
    a.year < b.year || (a.year == b.year && (a.month < b.month || (a.month == b.month && a.second <= b.second)))
  }

  /**
   * One registry row. `dob` and `travel_date` are string columns; the order
   * the model compares them by is the lexicographic one, which is the
   * calendar order for ISO `YYYY-MM-DD` dates.
   */
  datatype Record = Record(
    id: nat,
    surname: string,
    givenName: string,
    nationality: string,
    countryOfResidence: string,
    nationalIdNumber: Option<int>,
    documentType: string,
    documentNo: string,
    dob: string,
    age: int,
    sex: string,
    travelDate: string,
    direction: string,
    accommodationAddress: string,
    note: Option<string>,
    travelReason: string,
    borderPost: string,
    destinationComingFrom: string,
    createdAt: Timestamp,
    updatedAt: Timestamp)

  /** The columns of the table. */
  datatype Column =
    | Id | Surname | GivenName | Nationality | CountryOfResidence | NationalIdNumber
    | DocumentType | DocumentNo | Dob | Age | Sex | TravelDate | Direction
    | AccommodationAddress | Note | TravelReason | BorderPost | DestinationComingFrom
    | CreatedAt | UpdatedAt

  /** A cell of a query result. */
  datatype Value = SqlNull | Number(n: int) | Text(s: string) | Stamp(t: Timestamp)

  /** The column's name in SQL and in request parameters. */
  function ColumnName(c: Column): string {
    match c
    case Id => "id"
    case Surname => "surname"
    case GivenName => "given_name"
    case Nationality => "nationality"
    case CountryOfResidence => "country_of_residence"
    case NationalIdNumber => "national_id_number"
    case DocumentType => "document_type"
    case DocumentNo => "document_no"
    case Dob => "dob"
    case Age => "age"
    case Sex => "sex"
    case TravelDate => "travel_date"
    case Direction => "direction"
    case AccommodationAddress => "accommodation_address"
    case Note => "note"
    case TravelReason => "travel_reason"
    case BorderPost => "border_post"
    case DestinationComingFrom => "destination_coming_from"
    case CreatedAt => "created_at"
    case UpdatedAt => "updated_at"
  }

  /** Resolves a column name from a request; names that are not columns are an SQL error. */
  function ParseColumn(name: string): (r: Option<Column>)
    ensures r.Some? ==> ColumnName(r.value) == name
  {
    match name
    case "id" => Some(Id)
    case "surname" => Some(Surname)
    case "given_name" => Some(GivenName)
    case "nationality" => Some(Nationality)
    case "country_of_residence" => Some(CountryOfResidence)
    case "national_id_number" => Some(NationalIdNumber)
    case "document_type" => Some(DocumentType)
    case "document_no" => Some(DocumentNo)
    case "dob" => Some(Dob)
    case "age" => Some(Age)
    case "sex" => Some(Sex)
    case "travel_date" => Some(TravelDate)
    case "direction" => Some(Direction)
    case "accommodation_address" => Some(AccommodationAddress)
    case "note" => Some(Note)
    case "travel_reason" => Some(TravelReason)
    case "border_post" => Some(BorderPost)
    case "destination_coming_from" => Some(DestinationComingFrom)
    case "created_at" => Some(CreatedAt)
    case "updated_at" => Some(UpdatedAt)
    case _ => None
  }

  /** A column name has nothing for `trim` to strip. */
  lemma ColumnNamePlain(c: Column)
    ensures Trim(ColumnName(c)) == ColumnName(c)
  {
    TrimKeepsPlain(ColumnName(c));
  }

  /** Every column is found again by its own name. */
  lemma ParseColumnName(c: Column)
    ensures ParseColumn(ColumnName(c)) == Some(c)
  {
  }

  function OptionalText(o: Option<string>): Value {
    match o
    case None => SqlNull
    case Some(s) => Text(s)
  }

  /** The value a row holds in a column. */
  function Get(r: Record, c: Column): Value {
    match c
    case Id => Number(r.id)
    case Surname => Text(r.surname)
    case GivenName => Text(r.givenName)
    case Nationality => Text(r.nationality)
    case CountryOfResidence => Text(r.countryOfResidence)
    case NationalIdNumber => if r.nationalIdNumber.Some? then Number(r.nationalIdNumber.value) else SqlNull
    case DocumentType => Text(r.documentType)
    case DocumentNo => Text(r.documentNo)
    case Dob => Text(r.dob)
    case Age => Number(r.age)
    case Sex => Text(r.sex)
    case TravelDate => Text(r.travelDate)
    case Direction => Text(r.direction)
    case AccommodationAddress => Text(r.accommodationAddress)
    case Note => OptionalText(r.note)
    case TravelReason => Text(r.travelReason)
    case BorderPost => Text(r.borderPost)
    case DestinationComingFrom => Text(r.destinationComingFrom)
    case CreatedAt => Stamp(r.createdAt)
    case UpdatedAt => Stamp(r.updatedAt)
  }

  function Rank(v: Value): nat {
    match v
    case SqlNull => 0
    case Number(_) => 1
    case Text(_) => 2
    case Stamp(_) => 3
  }

  /** ORDER BY on one column: NULL first, numbers numerically, strings lexicographically. */
  predicate ValueLe(a: Value, b: Value) {
    if Rank(a) != Rank(b) then Rank(a) < Rank(b)
    else match a
      case SqlNull => true
      case Number(x) => x <= b.n
      case Text(s) => LexLe(s, b.s)
      case Stamp(t) => TimeLe(t, b.t)
  }

  lemma ValueLeTotal(a: Value, b: Value)
    ensures ValueLe(a, b) || ValueLe(b, a)
  {
    if a.Text? && b.Text? {
      LexLeTotal(a.s, b.s);
    }
  }

  lemma ValueLeTrans(a: Value, b: Value, c: Value)
    requires ValueLe(a, b) && ValueLe(b, c)
    ensures ValueLe(a, c)
  {
    if a.Text? && b.Text? && c.Text? {
      LexLeTrans(a.s, b.s, c.s);
    }
  }

  /** The rows of the table, in storage order. */
  type Store = seq<Record>

  /** The primary key: no two rows share an id. */
  predicate DistinctIds(s: Store) {
    forall i, j :: 0 <= i < j < |s| ==> s[i].id != s[j].id
  }

  /** `findOrFail`: the position of the row with this id. */
  function Find(s: Store, id: nat): (r: Option<nat>)
    ensures r.Some? ==> r.value < |s| && s[r.value].id == id
    ensures r.None? <==> forall i :: 0 <= i < |s| ==> s[i].id != id
    decreases |s|
  {
    if |s| == 0 then None
    else if s[0].id == id then Some(0)
    else match Find(s[1..], id)
      case None => None
      case Some(k) => Some(k + 1)
  }

  /** `index`: every stored row, in storage order. */
  function Index(s: Store): (rows: seq<Record>)
    ensures |rows| == |s|
    ensures forall i :: 0 <= i < |s| ==> rows[i] == s[i]
  {
    s
  }

  /**
   * Why a RegistryController action was refused: no row with the id, a
   * validation failure naming the fields, or a validated value the column
   * cannot hold, which MySQL in strict mode refuses when the row is written.
   */
  datatype RegistryError = NotFound | Invalid(fields: seq<string>) | StorageFailed

  /** The `age` field as Laravel's `integer` rule sees it. */
  datatype IntegerField = Missing | NotInteger | Integer(n: int)

  /** The body of an update request. */
  datatype UpdateRequest = UpdateRequest(
    surname: Param,
    givenName: Param,
    nationality: Param,
    countryOfResidence: Param,
    documentType: Param,
    documentNo: Param,
    dob: Param,
    age: IntegerField,
    sex: Param,
    travelDate: Param,
    direction: Param,
    accommodationAddress: Param,
    note: Param,
    travelReason: Param,
    borderPost: Param,
    destinationComingFrom: Param)

  /** `required|date`; the `date` rule itself is the framework's and a parameter here. */
  predicate RequiredDate(p: Param, isDate: string -> bool) {
    Filled(p) && isDate(p.value)
  }

  /** `nullable|string|max:n`. */
  predicate NullableString(p: Param, n: nat) {
    p.Given? ==> |p.value| <= n
  }

  /** The rules of `update`, one per field, in the order they are declared. */
  function UpdateChecks(q: UpdateRequest, isDate: string -> bool): seq<(string, bool)> {
    [ ("surname", RequiredString(q.surname, 255)),
      ("given_name", RequiredString(q.givenName, 255)),
      ("nationality", RequiredString(q.nationality, 255)),
      ("country_of_residence", RequiredString(q.countryOfResidence, 255)),
      ("document_type", RequiredString(q.documentType, 255)),
      ("document_no", RequiredString(q.documentNo, 255)),
      ("dob", RequiredDate(q.dob, isDate)),
      ("age", q.age.Integer? && q.age.n >= 0),
      ("sex", RequiredString(q.sex, 50)),
      ("travel_date", RequiredDate(q.travelDate, isDate)),
      ("direction", RequiredString(q.direction, 255)),
      ("accommodation_address", RequiredString(q.accommodationAddress, 255)),
      ("note", NullableString(q.note, 1000)),
      ("travel_reason", RequiredString(q.travelReason, 255)),
      ("border_post", RequiredString(q.borderPost, 255)),
      ("destination_coming_from", RequiredString(q.destinationComingFrom, 255)) ]
  }

  /** The update request passes every rule, stated field by field. */
  predicate ValidUpdate(q: UpdateRequest, isDate: string -> bool) {
    && RequiredString(q.surname, 255)
    && RequiredString(q.givenName, 255)
    && RequiredString(q.nationality, 255)
    && RequiredString(q.countryOfResidence, 255)
    && RequiredString(q.documentType, 255)
    && RequiredString(q.documentNo, 255)
    && RequiredDate(q.dob, isDate)
    && q.age.Integer? && q.age.n >= 0
    && RequiredString(q.sex, 50)
    && RequiredDate(q.travelDate, isDate)
    && RequiredString(q.direction, 255)
    && RequiredString(q.accommodationAddress, 255)
    && NullableString(q.note, 1000)
    && RequiredString(q.travelReason, 255)
    && RequiredString(q.borderPost, 255)
    && RequiredString(q.destinationComingFrom, 255)
  }

  /** Every required field carries a string and `age` an integer: what `Fill` reads. */
  predicate Complete(q: UpdateRequest) {
    && q.surname.Given? && q.givenName.Given? && q.nationality.Given? && q.countryOfResidence.Given?
    && q.documentType.Given? && q.documentNo.Given? && q.dob.Given? && q.age.Integer?
    && q.sex.Given? && q.travelDate.Given? && q.direction.Given? && q.accommodationAddress.Given?
    && q.travelReason.Given? && q.borderPost.Given? && q.destinationComingFrom.Given?
  }

  /** The largest value of the signed 32-bit `integer` column `age`. */
  const IntMax := 2147483647

  /**
   * Every value `update` writes fits its column: the migration's `string`
   * columns are VARCHAR(255) and `age` is a signed 32-bit INT. Only `dob`,
   * `travel_date`, `note` and `age` have rules that let a wider value through.
   */
  predicate FitsColumns(q: UpdateRequest) {
    && (q.dob.Given? ==> |q.dob.value| <= 255)
    && (q.travelDate.Given? ==> |q.travelDate.value| <= 255)
    && (q.note.Given? ==> |q.note.value| <= 255)
    && (q.age.Integer? ==> q.age.n <= IntMax)
  }

  /** The rule list and the field-by-field statement agree. */
  lemma UpdateChecksMeanValid(q: UpdateRequest, isDate: string -> bool)
    ensures ValidUpdate(q, isDate) <==> forall i :: 0 <= i < 16 ==> UpdateChecks(q, isDate)[i].1
  {
    var c := UpdateChecks(q, isDate);
    if forall i :: 0 <= i < 16 ==> c[i].1 {
      assert c[0].1 && c[1].1 && c[2].1 && c[3].1 && c[4].1 && c[5].1 && c[6].1 && c[7].1;
      assert c[8].1 && c[9].1 && c[10].1 && c[11].1 && c[12].1 && c[13].1 && c[14].1 && c[15].1;
    }
  }

  /** The columns `$validated` carries: the fifteen required fields, and `note` when it was sent. */
  predicate Validated(q: UpdateRequest, c: Column) {
    match c
    case Id | NationalIdNumber | CreatedAt | UpdatedAt => false
    case Note => !q.note.Absent?
    case _ => true
  }

  function ParamText(p: Param): Value {
    if p.Given? then Text(p.value) else SqlNull
  }

  /** The value a validated request asks for in a column. */
  function Requested(q: UpdateRequest, c: Column): Value {
    match c
    case Surname => ParamText(q.surname)
    case GivenName => ParamText(q.givenName)
    case Nationality => ParamText(q.nationality)
    case CountryOfResidence => ParamText(q.countryOfResidence)
    case DocumentType => ParamText(q.documentType)
    case DocumentNo => ParamText(q.documentNo)
    case Dob => ParamText(q.dob)
    case Age => if q.age.Integer? then Number(q.age.n) else SqlNull
    case Sex => ParamText(q.sex)
    case TravelDate => ParamText(q.travelDate)
    case Direction => ParamText(q.direction)
    case AccommodationAddress => ParamText(q.accommodationAddress)
    case Note => ParamText(q.note)
    case TravelReason => ParamText(q.travelReason)
    case BorderPost => ParamText(q.borderPost)
    case DestinationComingFrom => ParamText(q.destinationComingFrom)
    case _ => SqlNull
  }

  /** Eloquent's `fill($validated)`: the attribute values after the assignment, before saving. */
  function Assign(r: Record, q: UpdateRequest): (a: Record)
    requires Complete(q)
    ensures a.id == r.id && a.nationalIdNumber == r.nationalIdNumber
    ensures a.createdAt == r.createdAt && a.updatedAt == r.updatedAt
  {
    r.(
      surname := q.surname.value,
      givenName := q.givenName.value,
      nationality := q.nationality.value,
      countryOfResidence := q.countryOfResidence.value,
      documentType := q.documentType.value,
      documentNo := q.documentNo.value,
      dob := q.dob.value,
      age := q.age.n,
      sex := q.sex.value,
      travelDate := q.travelDate.value,
      direction := q.direction.value,
      accommodationAddress := q.accommodationAddress.value,
      note := if q.note.Absent? then r.note else if q.note.Given? then Some(q.note.value) else None,
      travelReason := q.travelReason.value,
      borderPost := q.borderPost.value,
      destinationComingFrom := q.destinationComingFrom.value)
  }

  /** `$registry->update($validated)` on one row; `updated_at` moves only when something changed. */
  function Fill(r: Record, q: UpdateRequest, now: Timestamp): (f: Record)
    requires Complete(q)
    ensures f.id == r.id && f.nationalIdNumber == r.nationalIdNumber && f.createdAt == r.createdAt
    ensures f.updatedAt == if f == r then r.updatedAt else now
  {
    var written := Assign(r, q);
    var f := written.(updatedAt := if written == r then r.updatedAt else now);
    f
  }

  /** Column by column: a validated column takes the requested value, any other keeps its own. */
  lemma FillColumn(r: Record, q: UpdateRequest, now: Timestamp, c: Column)
    requires Complete(q)
    ensures Validated(q, c) ==> Get(Fill(r, q, now), c) == Requested(q, c)
    ensures !Validated(q, c) && c != UpdatedAt ==> Get(Fill(r, q, now), c) == Get(r, c)
  {
    match c
    case Id =>
    case Surname =>
    case GivenName =>
    case Nationality =>
    case CountryOfResidence =>
    case NationalIdNumber =>
    case DocumentType =>
    case DocumentNo =>
    case Dob =>
    case Age =>
    case Sex =>
    case TravelDate =>
    case Direction =>
    case AccommodationAddress =>
    case Note =>
    case TravelReason =>
    case BorderPost =>
    case DestinationComingFrom =>
    case CreatedAt =>
    case UpdatedAt =>
  }

  /**
   * `update`: find the row (an unknown id is refused before any rule runs),
   * validate every field, then overwrite exactly the validated columns.
   */
  function Update(s: Store, id: nat, q: UpdateRequest, isDate: string -> bool, now: Timestamp)
    : (r: Result<Store, RegistryError>)
    ensures Find(s, id).None? ==> r == Err(NotFound)
    ensures Find(s, id).Some? && !ValidUpdate(q, isDate) ==>
              r.Err? && r.error.Invalid? && |r.error.fields| > 0
              && forall f :: f in r.error.fields <==> exists k :: 0 <= k < 16 && UpdateChecks(q, isDate)[k] == (f, false)
    ensures Find(s, id).Some? && ValidUpdate(q, isDate) && !FitsColumns(q) ==> r == Err(StorageFailed)
    ensures r.Ok? <==> Find(s, id).Some? && ValidUpdate(q, isDate) && FitsColumns(q)
    ensures r.Ok? ==> |r.value| == |s|
    ensures r.Ok? ==> forall j :: 0 <= j < |s| && s[j].id != id ==> r.value[j] == s[j]
    ensures r.Ok? ==> var k := Find(s, id).value;
              && r.value[k] == Fill(s[k], q, now)
              && r.value[k].updatedAt == if r.value[k] == s[k] then s[k].updatedAt else now
  {
    match Find(s, id)
    case None => Err(NotFound)
    case Some(k) =>
      var checks := UpdateChecks(q, isDate);
      var failing := Failing(checks);
      UpdateChecksMeanValid(q, isDate);
      if |failing| > 0 then
        assert forall f :: f in failing <==> exists i :: 0 <= i < 16 && checks[i] == (f, false);
        Err(Invalid(failing))
      else if !FitsColumns(q) then
        Err(StorageFailed)
      else
        Ok(s[k := Fill(s[k], q, now)])
  }

  /** A successful update overwrites exactly the validated columns of the target row. */
  lemma UpdateColumns(s: Store, id: nat, q: UpdateRequest, isDate: string -> bool, now: Timestamp)
    requires Update(s, id, q, isDate, now).Ok?
    ensures var k, after := Find(s, id).value, Update(s, id, q, isDate, now).value[Find(s, id).value];
      && s[k].id == id
      && (forall c :: Validated(q, c) ==> Get(after, c) == Requested(q, c))
      && (forall c :: !Validated(q, c) && c != UpdatedAt ==> Get(after, c) == Get(s[k], c))
  {
    var k := Find(s, id).value;
    UpdateChecksMeanValid(q, isDate);
    forall c ensures Validated(q, c) ==> Get(Fill(s[k], q, now), c) == Requested(q, c)
      ensures !Validated(q, c) && c != UpdatedAt ==> Get(Fill(s[k], q, now), c) == Get(s[k], c)
    {
      FillColumn(s[k], q, now, c);
    }
  }

  /** An update keeps the primary key intact. */
  lemma UpdateKeepsIds(s: Store, id: nat, q: UpdateRequest, isDate: string -> bool, now: Timestamp)
    requires DistinctIds(s)
    requires Update(s, id, q, isDate, now).Ok?
    ensures DistinctIds(Update(s, id, q, isDate, now).value)
    ensures forall j :: 0 <= j < |s| ==> Update(s, id, q, isDate, now).value[j].id == s[j].id
  {
    var k := Find(s, id).value;
    var after := Update(s, id, q, isDate, now).value;
    forall j | 0 <= j < |s| ensures after[j].id == s[j].id {
      if s[j].id == id {
        assert j == k;
      }
    }
  }

  /**
   * What `update` answers. `ServerError` carries the table after the write:
   * the row is saved and the request then ends in an uncaught error.
   * `Redirected` is the redirect to a named route with a flash message.
   */
  datatype UpdateResponse =
    | ServerError(store: Store)
    | ErrorPage(message: string)
    | Redirected(store: Store, route: string, flash: string)

  const UpdateFailed := "Unable to update registry record."

  /**
   * `update` as the controller answers. `findOrFail`, `validate` and the
   * write all run inside the catch-all, so an unknown id, a rejected field
   * and a value the column refuses end on the same error page, which names
   * no field. After a write, `Redirect::route` names a class the file never
   * imports; the resulting class-not-found `Error` is not an `Exception`, so
   * the catch lets it through and the written row comes back as a server error.
   */
  function UpdateAsWritten(s: Store, id: nat, q: UpdateRequest, isDate: string -> bool, now: Timestamp)
    : (r: UpdateResponse)
    ensures !r.Redirected?
    ensures r.ServerError? <==> Find(s, id).Some? && ValidUpdate(q, isDate) && FitsColumns(q)
    ensures r.ErrorPage? ==> r == ErrorPage(UpdateFailed)
    ensures r.ServerError? ==> |r.store| == |s| && forall j :: 0 <= j < |s| && s[j].id != id ==> r.store[j] == s[j]
  {
    match Update(s, id, q, isDate, now)
    case Ok(t) => ServerError(t)
    case Err(_) => ErrorPage(UpdateFailed)
  }

  /** `update` with the `Redirect` facade imported: a write ends on the listing with the success message. */
  function UpdateRedirecting(s: Store, id: nat, q: UpdateRequest, isDate: string -> bool, now: Timestamp)
    : (r: UpdateResponse)
    ensures !r.ServerError?
    ensures r.Redirected? <==> Find(s, id).Some? && ValidUpdate(q, isDate) && FitsColumns(q)
    ensures r.Redirected? ==> r.route == "registry.index" && r.flash == "Record updated successfully."
    ensures r.Redirected? ==> |r.store| == |s| && forall j :: 0 <= j < |s| && s[j].id != id ==> r.store[j] == s[j]
    ensures r.ErrorPage? ==> r == ErrorPage(UpdateFailed)
  {
    match Update(s, id, q, isDate, now)
    case Ok(t) => Redirected(t, "registry.index", "Record updated successfully.")
    case Err(_) => ErrorPage(UpdateFailed)
  }

  /**
   * Every successful update writes the row and still answers with a server
   * error: the same table the redirecting version leaves, but no redirect.
   */
  lemma WrittenUpdateEndsInServerError(s: Store, id: nat, q: UpdateRequest, isDate: string -> bool, now: Timestamp)
    requires Find(s, id).Some? && ValidUpdate(q, isDate) && FitsColumns(q)
    ensures UpdateAsWritten(s, id, q, isDate, now).ServerError?
    ensures UpdateRedirecting(s, id, q, isDate, now).Redirected?
    ensures UpdateAsWritten(s, id, q, isDate, now).store == UpdateRedirecting(s, id, q, isDate, now).store
    ensures UpdateAsWritten(s, id, q, isDate, now).store == Update(s, id, q, isDate, now).value
  {
  }

  /** A request that passes every rule of `update` with a 300-character note. */
  function LongNoteRequest(): (q: UpdateRequest)
    ensures q.note.Given? && |q.note.value| == 300
  {
    UpdateRequest(Given("Doe"), Given("Jane"), Given("Kenya"), Given("Kenya"), Given("passport"), Given("A1"),
      Given("2000-01-01"), Integer(25), Given("F"), Given("2025-01-01"), Given("in"), Given("Nairobi"),
      Given(seq(300, _ => 'a')), Given("work"), Given("Namanga"), Given("Nairobi"))
  }

  lemma LongNoteFields(isDate: string -> bool)
    requires isDate("2000-01-01") && isDate("2025-01-01")
    ensures var q := LongNoteRequest();
      ValidUpdate(q, isDate) && !FitsColumns(q) && q.dob.value == "2000-01-01" && q.travelDate.value == "2025-01-01"
  {
    var q := LongNoteRequest();
    assert !Blank(q.surname.value) by { assert !TrimmedChar(q.surname.value[0]); }
    assert !Blank(q.givenName.value) by { assert !TrimmedChar(q.givenName.value[0]); }
    assert !Blank(q.nationality.value) by { assert !TrimmedChar(q.nationality.value[0]); }
    assert !Blank(q.countryOfResidence.value) by { assert !TrimmedChar(q.countryOfResidence.value[0]); }
    assert !Blank(q.documentType.value) by { assert !TrimmedChar(q.documentType.value[0]); }
    assert !Blank(q.documentNo.value) by { assert !TrimmedChar(q.documentNo.value[0]); }
    assert !Blank(q.dob.value) by { assert !TrimmedChar(q.dob.value[0]); }
    assert !Blank(q.sex.value) by { assert !TrimmedChar(q.sex.value[0]); }
    assert !Blank(q.travelDate.value) by { assert !TrimmedChar(q.travelDate.value[0]); }
    assert !Blank(q.direction.value) by { assert !TrimmedChar(q.direction.value[0]); }
    assert !Blank(q.accommodationAddress.value) by { assert !TrimmedChar(q.accommodationAddress.value[0]); }
    assert !Blank(q.travelReason.value) by { assert !TrimmedChar(q.travelReason.value[0]); }
    assert !Blank(q.borderPost.value) by { assert !TrimmedChar(q.borderPost.value[0]); }
    assert !Blank(q.destinationComingFrom.value) by { assert !TrimmedChar(q.destinationComingFrom.value[0]); }
  }

  /**
   * The `note` rule allows 1000 characters, the column holds 255: a
   * 300-character note passes validation and the write then fails, so the
   * row stays as it was and the answer is the error page.
   */
  lemma LongNoteFailsWrite(s: Store, id: nat, isDate: string -> bool, now: Timestamp)
    requires Find(s, id).Some? && isDate("2000-01-01") && isDate("2025-01-01")
    ensures ValidUpdate(LongNoteRequest(), isDate)
    ensures Update(s, id, LongNoteRequest(), isDate, now) == Err(StorageFailed)
    ensures UpdateAsWritten(s, id, LongNoteRequest(), isDate, now) == ErrorPage(UpdateFailed)
  {
    LongNoteFields(isDate);
  }

  /**
   * The rules evidently meant: `note` limited to the column's 255
   * characters, `age` to the INT range, and the two dates to their
   * VARCHAR(255) columns, so that a too-wide value is a field error.
   */
  function UpdateChecksWithinColumns(q: UpdateRequest, isDate: string -> bool): seq<(string, bool)> {
    [ ("surname", RequiredString(q.surname, 255)),
      ("given_name", RequiredString(q.givenName, 255)),
      ("nationality", RequiredString(q.nationality, 255)),
      ("country_of_residence", RequiredString(q.countryOfResidence, 255)),
      ("document_type", RequiredString(q.documentType, 255)),
      ("document_no", RequiredString(q.documentNo, 255)),
      ("dob", RequiredDate(q.dob, isDate) && |q.dob.value| <= 255),
      ("age", q.age.Integer? && 0 <= q.age.n <= IntMax),
      ("sex", RequiredString(q.sex, 50)),
      ("travel_date", RequiredDate(q.travelDate, isDate) && |q.travelDate.value| <= 255),
      ("direction", RequiredString(q.direction, 255)),
      ("accommodation_address", RequiredString(q.accommodationAddress, 255)),
      ("note", NullableString(q.note, 255)),
      ("travel_reason", RequiredString(q.travelReason, 255)),
      ("border_post", RequiredString(q.borderPost, 255)),
      ("destination_coming_from", RequiredString(q.destinationComingFrom, 255)) ]
  }

  /** The corrected rules pass exactly when the request is valid and every value fits its column. */
  lemma WithinColumnsMeansWritten(q: UpdateRequest, isDate: string -> bool)
    ensures (forall i :: 0 <= i < 16 ==> UpdateChecksWithinColumns(q, isDate)[i].1)
            <==> ValidUpdate(q, isDate) && FitsColumns(q)
  {
    var c := UpdateChecksWithinColumns(q, isDate);
    if forall i :: 0 <= i < 16 ==> c[i].1 {
      assert c[0].1 && c[1].1 && c[2].1 && c[3].1 && c[4].1 && c[5].1 && c[6].1 && c[7].1;
      assert c[8].1 && c[9].1 && c[10].1 && c[11].1 && c[12].1 && c[13].1 && c[14].1 && c[15].1;
    }
  }

  /** Under the corrected rules the 300-character note is reported on `note` alone. */
  lemma LongNoteReportedOnNote(isDate: string -> bool)
    requires isDate("2000-01-01") && isDate("2025-01-01")
    ensures forall f :: f in Failing(UpdateChecksWithinColumns(LongNoteRequest(), isDate)) <==> f == "note"
  {
    var q := LongNoteRequest();
    LongNoteFields(isDate);
    var c := UpdateChecksWithinColumns(q, isDate);
    assert c[7].1 && !c[12].1;
    assert forall i :: 0 <= i < 16 && i != 12 ==> c[i].1;
  }

  /** `destroy`: remove the row with this id; an unknown id is refused. */
  function Destroy(s: Store, id: nat): (r: Result<Store, RegistryError>)
    ensures Find(s, id).None? <==> r == Err(NotFound)
    ensures r.Ok? <==> Find(s, id).Some?
    ensures r.Ok? ==> |r.value| == |s| - 1
    ensures r.Ok? ==> forall j :: 0 <= j < |s| && s[j].id != id ==> s[j] in r.value
    ensures r.Ok? && DistinctIds(s) ==> forall x :: x in r.value <==> x in s && x.id != id
  {
    match Find(s, id)
    case None => Err(NotFound)
    case Some(k) =>
      var rest := s[..k] + s[k + 1..];
      assert forall j :: 0 <= j < |s| && j != k ==> s[j] in rest by {
        forall j | 0 <= j < |s| && j != k ensures s[j] in rest {
          if j < k { assert rest[j] == s[j]; } else { assert rest[j - 1] == s[j]; }
        }
      }
      Ok(rest)
  }
}

=== FILE: reports.dfy ===
/**
 * ReportController: `generate` and `export` run one filter / sort / select
 * pipeline over the registry table; `save` and `index` keep per-user report
 * configurations.
 */
module Reports {
  import opened Results
  import opened Http
  import opened Strings
  import opened Lists
  import opened Sorting
  import opened Registry

  /** The `filters` object of a request; a missing key reads as the empty string. */
  type Filters = map<string, string>

  function FilterValue(f: Filters, key: string): string {
    if key in f then f[key] else ""
  }

  /** A filter is active unless its value is PHP-`empty`. */
  predicate Active(f: Filters, key: string) {
    !PhpEmpty(FilterValue(f, key))
  }

  /**
   * What the filters ask of a row, stated directly on its fields: nationality
   * contains the value, sex / travel reason / direction equal theirs, travel
   * date inside the inclusive range; an inactive filter asks nothing.
   */
  predicate MatchesFilters(r: Record, f: Filters) {
    && (Active(f, "nationality") ==> Contains(r.nationality, FilterValue(f, "nationality")))
    && (Active(f, "sex") ==> r.sex == FilterValue(f, "sex"))
    && (Active(f, "travel_date_from") ==> LexLe(FilterValue(f, "travel_date_from"), r.travelDate))
    && (Active(f, "travel_date_to") ==> LexLe(r.travelDate, FilterValue(f, "travel_date_to")))
    && (Active(f, "travel_reason") ==> r.travelReason == FilterValue(f, "travel_reason"))
    && (Active(f, "direction") ==> r.direction == FilterValue(f, "direction"))
  }

  /** One condition of the WHERE clause the query builder assembles. */
  datatype Condition =
    | Like(column: Column, needle: string)
    | Equals(column: Column, value: string)
    | DateFrom(column: Column, bound: string)
    | DateTo(column: Column, bound: string)

  predicate Holds(r: Record, c: Condition) {
    var v := Get(r, c.column);
    match c
    case Like(_, needle) => v.Text? && Contains(v.s, needle)
    case Equals(_, value) => v == Text(value)
    case DateFrom(_, bound) => v.Text? && LexLe(bound, v.s)
    case DateTo(_, bound) => v.Text? && LexLe(v.s, bound)
  }

  function When(active: bool, c: Condition): seq<Condition> {
    if active then [c] else []
  }

  /** The six `if (!empty(...))` branches, in the order they add their `where`. */
  function Conditions(f: Filters): seq<Condition> {
    When(Active(f, "nationality"), Like(Nationality, FilterValue(f, "nationality")))
    + When(Active(f, "sex"), Equals(Sex, FilterValue(f, "sex")))
    + When(Active(f, "travel_date_from"), DateFrom(TravelDate, FilterValue(f, "travel_date_from")))
    + When(Active(f, "travel_date_to"), DateTo(TravelDate, FilterValue(f, "travel_date_to")))
    + When(Active(f, "travel_reason"), Equals(TravelReason, FilterValue(f, "travel_reason")))
    + When(Active(f, "direction"), Equals(Direction, FilterValue(f, "direction")))
  }

  predicate AllHold(r: Record, conds: seq<Condition>) {
    forall i :: 0 <= i < |conds| ==> Holds(r, conds[i])
  }

  lemma AllHoldAppend(r: Record, a: seq<Condition>, b: seq<Condition>)
    ensures AllHold(r, a + b) <==> AllHold(r, a) && AllHold(r, b)
  {
    if AllHold(r, a) && AllHold(r, b) {
      forall i | 0 <= i < |a + b| ensures Holds(r, (a + b)[i]) {
        if i >= |a| { assert (a + b)[i] == b[i - |a|]; }
      }
    }
    if AllHold(r, a + b) {
      forall i | 0 <= i < |b| ensures Holds(r, b[i]) { assert (a + b)[|a| + i] == b[i]; }
      forall i | 0 <= i < |a| ensures Holds(r, a[i]) { assert (a + b)[i] == a[i]; }
    }
  }

  lemma AllHoldWhen(r: Record, active: bool, c: Condition)
    ensures AllHold(r, When(active, c)) <==> (active ==> Holds(r, c))
  {
    if active { assert When(active, c)[0] == c; }
  }

  /** The WHERE clause the builder assembles means exactly what the filters ask. */
  lemma ConditionsMeanFilters(r: Record, f: Filters)
    ensures AllHold(r, Conditions(f)) <==> MatchesFilters(r, f)
  {
    var c1 := When(Active(f, "nationality"), Like(Nationality, FilterValue(f, "nationality")));
    var c2 := When(Active(f, "sex"), Equals(Sex, FilterValue(f, "sex")));
    var c3 := When(Active(f, "travel_date_from"), DateFrom(TravelDate, FilterValue(f, "travel_date_from")));
    var c4 := When(Active(f, "travel_date_to"), DateTo(TravelDate, FilterValue(f, "travel_date_to")));
    var c5 := When(Active(f, "travel_reason"), Equals(TravelReason, FilterValue(f, "travel_reason")));
    var c6 := When(Active(f, "direction"), Equals(Direction, FilterValue(f, "direction")));
    assert Conditions(f) == c1 + c2 + c3 + c4 + c5 + c6;
    AllHoldAppend(r, c1 + c2 + c3 + c4 + c5, c6);
    AllHoldAppend(r, c1 + c2 + c3 + c4, c5);
    AllHoldAppend(r, c1 + c2 + c3, c4);
    AllHoldAppend(r, c1 + c2, c3);
    AllHoldAppend(r, c1, c2);
    AllHoldWhen(r, Active(f, "nationality"), Like(Nationality, FilterValue(f, "nationality")));
    AllHoldWhen(r, Active(f, "sex"), Equals(Sex, FilterValue(f, "sex")));
    AllHoldWhen(r, Active(f, "travel_date_from"), DateFrom(TravelDate, FilterValue(f, "travel_date_from")));
    AllHoldWhen(r, Active(f, "travel_date_to"), DateTo(TravelDate, FilterValue(f, "travel_date_to")));
    AllHoldWhen(r, Active(f, "travel_reason"), Equals(TravelReason, FilterValue(f, "travel_reason")));
    AllHoldWhen(r, Active(f, "direction"), Equals(Direction, FilterValue(f, "direction")));
    HoldsOnFields(r, f);
  }

  /** Each condition, read on the row's own fields. */
  lemma HoldsOnFields(r: Record, f: Filters)
    ensures Holds(r, Like(Nationality, FilterValue(f, "nationality"))) <==> Contains(r.nationality, FilterValue(f, "nationality"))
    ensures Holds(r, Equals(Sex, FilterValue(f, "sex"))) <==> r.sex == FilterValue(f, "sex")
    ensures Holds(r, DateFrom(TravelDate, FilterValue(f, "travel_date_from"))) <==> LexLe(FilterValue(f, "travel_date_from"), r.travelDate)
    ensures Holds(r, DateTo(TravelDate, FilterValue(f, "travel_date_to"))) <==> LexLe(r.travelDate, FilterValue(f, "travel_date_to"))
    ensures Holds(r, Equals(TravelReason, FilterValue(f, "travel_reason"))) <==> r.travelReason == FilterValue(f, "travel_reason")
    ensures Holds(r, Equals(Direction, FilterValue(f, "direction"))) <==> r.direction == FilterValue(f, "direction")
  {
  }

  /** The rows the WHERE clause keeps, in storage order. */
  function Where(s: Store, f: Filters): (rows: seq<Record>)
    ensures forall i :: 0 <= i < |rows| ==> MatchesFilters(rows[i], f)
    ensures forall x :: x in rows <==> x in s && MatchesFilters(x, f)
    ensures forall x :: multiset(rows)[x] == if MatchesFilters(x, f) then multiset(s)[x] else 0
    ensures IsSubsequence(rows, s)
  {
    var conds := Conditions(f);
    var keep := (x: Record) => AllHold(x, conds);
    var rows := Filter(s, keep);
    FilterMembers(s, keep);
    FilterCounts(s, keep);
    FilterSubsequence(s, keep);
    assert forall x :: keep(x) <==> MatchesFilters(x, f) by {
      forall x ensures keep(x) <==> MatchesFilters(x, f) { ConditionsMeanFilters(x, f); }
    }
    rows
  }

  /** With no active filter the WHERE clause keeps every row. */
  lemma EmptyFiltersKeepAll(s: Store, f: Filters)
    requires forall key :: key in f ==> PhpEmpty(f[key])
    ensures Where(s, f) == s
  {
    var rows := Where(s, f);
    var conds := Conditions(f);
    assert conds == [];
    Lists.FilterKeepsAll(s, (x: Record) => AllHold(x, conds));
  }

  /** ORDER BY one column in one direction. */
  datatype Order = Unordered | OrderBy(column: Column, descending: bool)

  function Comparator(column: Column, descending: bool): (Record, Record) -> bool {
    (a: Record, b: Record) =>
      if descending then ValueLe(Get(b, column), Get(a, column)) else ValueLe(Get(a, column), Get(b, column))
  }

  lemma ComparatorOrders(column: Column, descending: bool)
    ensures TotalPreorder(Comparator(column, descending))
  {
    var le := Comparator(column, descending);
    forall a, b ensures le(a, b) || le(b, a) {
      ValueLeTotal(Get(a, column), Get(b, column));
    }
    forall a, b, c | le(a, b) && le(b, c) ensures le(a, c) {
      if descending {
        ValueLeTrans(Get(c, column), Get(b, column), Get(a, column));
      } else {
        ValueLeTrans(Get(a, column), Get(b, column), Get(c, column));
      }
    }
  }

  /** Applies the ORDER BY, if any. */
  function Arrange(rows: seq<Record>, order: Order): (r: seq<Record>)
    ensures multiset(r) == multiset(rows)
    ensures order.Unordered? ==> r == rows
    ensures order.OrderBy? ==> SortedBy(r, Comparator(order.column, order.descending))
  {
    match order
    case Unordered => rows
    case OrderBy(column, descending) =>
      ComparatorOrders(column, descending);
      Sort(rows, Comparator(column, descending))
  }

  /** One result row: the selected columns of one registry row. */
  type Row = map<Column, Value>

  function Project(r: Record, columns: seq<Column>): (row: Row)
    ensures row.Keys == set c | c in columns
    ensures forall c :: c in row ==> row[c] == Get(r, c)
  {
    map c | c in columns :: Get(r, c)
  }

  /** The body shared by `generate` and `export`. */
  datatype ReportRequest = ReportRequest(
    selectedColumns: seq<string>,
    filters: Filters,
    sortBy: Param,
    sortOrder: Param)

  datatype ReportError =
    | ValidationFailed(fields: seq<string>)
    | UnknownColumn(name: string)
    | BadDirection
    | InvalidFormat
    | StorageError

  /** `sortOrder => in:asc,desc|nullable`. */
  predicate SortOrderAllowed(p: Param) {
    p.Absent? || p.Null? || p == Given("asc") || p == Given("desc")
  }

  function RequestChecks(q: ReportRequest): seq<(string, bool)> {
    [("selectedColumns", |q.selectedColumns| > 0), ("sortOrder", SortOrderAllowed(q.sortOrder))]
  }

  /** `$request->input('sortBy', '')` is non-empty: the only case that orders the rows. */
  predicate Sorts(q: ReportRequest) {
    q.sortBy.Given? && !PhpEmpty(q.sortBy.value)
  }

  /** Resolves every requested column name; the first unknown one is the SQL error. */
  function ResolveColumns(names: seq<string>): (r: Result<seq<Column>, ReportError>)
    ensures r.Ok? <==> forall i :: 0 <= i < |names| ==> ParseColumn(names[i]).Some?
    ensures r.Ok? ==> |r.value| == |names| && forall i :: 0 <= i < |names| ==> ColumnName(r.value[i]) == names[i]
    ensures r.Err? ==> r.error.UnknownColumn? && r.error.name in names && ParseColumn(r.error.name).None?
  {
    if |names| == 0 then Ok([])
    else match ParseColumn(names[0])
      case None => Err(UnknownColumn(names[0]))
      case Some(c) =>
        match ResolveColumns(names[1..])
        case Err(e) => Err(e)
        case Ok(cs) => Ok([c] + cs)
  }

  /**
   * What the request makes the query do: validation first, then `orderBy`
   * (which throws on a null direction), then the SQL statement, whose
   * unknown select or sort column fails it.
   */
  function Plan(q: ReportRequest): (r: Result<(seq<Column>, Order), ReportError>)
    ensures r.Ok? ==> |q.selectedColumns| > 0 && SortOrderAllowed(q.sortOrder)
    ensures r.Ok? ==> |r.value.0| == |q.selectedColumns|
    ensures r.Ok? ==> forall i :: 0 <= i < |q.selectedColumns| ==> ColumnName(r.value.0[i]) == q.selectedColumns[i]
    ensures r.Ok? ==> (r.value.1.OrderBy? <==> Sorts(q))
    ensures r.Ok? && Sorts(q) ==> ColumnName(r.value.1.column) == q.sortBy.value
    ensures r.Ok? && Sorts(q) ==> (r.value.1.descending <==> q.sortOrder == Given("desc"))
    ensures |q.selectedColumns| == 0 || !SortOrderAllowed(q.sortOrder) ==> r.Err? && r.error.ValidationFailed?
    ensures |q.selectedColumns| > 0 && SortOrderAllowed(q.sortOrder) && Sorts(q) && q.sortOrder.Null? ==> r == Err(BadDirection)
    ensures r.Err? && r.error.UnknownColumn? ==>
      ParseColumn(r.error.name).None? && (r.error.name in q.selectedColumns || (Sorts(q) && r.error.name == q.sortBy.value))
    ensures r.Ok? <==>
      && |q.selectedColumns| > 0 && SortOrderAllowed(q.sortOrder)
      && !(Sorts(q) && q.sortOrder.Null?)
      && (forall i :: 0 <= i < |q.selectedColumns| ==> ParseColumn(q.selectedColumns[i]).Some?)
      && (Sorts(q) ==> ParseColumn(q.sortBy.value).Some?)
  {
    var checks := RequestChecks(q);
    assert checks[0].1 == (|q.selectedColumns| > 0) && checks[1].1 == SortOrderAllowed(q.sortOrder);
    var failing := Failing(checks);
    if |failing| > 0 then Err(ValidationFailed(failing))
    else if Sorts(q) && q.sortOrder.Null? then Err(BadDirection)
    else match ResolveColumns(q.selectedColumns)
      case Err(e) => Err(e)
      case Ok(columns) =>
        if !Sorts(q) then Ok((columns, Unordered))
        else match ParseColumn(q.sortBy.value)
          case None => Err(UnknownColumn(q.sortBy.value))
          case Some(c) => Ok((columns, OrderBy(c, q.sortOrder == Given("desc"))))
  }

  /** The registry rows a report returns, before projection. */
  function ReportRecords(s: Store, q: ReportRequest, order: Order): (rows: seq<Record>)
    ensures multiset(rows) == multiset(Where(s, q.filters))
    ensures order.Unordered? ==> rows == Where(s, q.filters)
    ensures order.OrderBy? ==> SortedBy(rows, Comparator(order.column, order.descending))
  {
    Arrange(Where(s, q.filters), order)
  }

  /** Every reported row satisfies the filters, and appears as often as it is stored. */
  lemma ReportRecordsMatch(s: Store, q: ReportRequest, order: Order)
    ensures var rows := ReportRecords(s, q, order);
      && (forall i :: 0 <= i < |rows| ==> MatchesFilters(rows[i], q.filters))
      && (forall x :: multiset(rows)[x] == if MatchesFilters(x, q.filters) then multiset(s)[x] else 0)
  {
    var w := Where(s, q.filters);
    var rows := ReportRecords(s, q, order);
    forall i | 0 <= i < |rows| ensures MatchesFilters(rows[i], q.filters) {
      assert rows[i] in multiset(rows);
      assert rows[i] in w;
    }
  }

  /** The rows of a report: filtered, ordered, then projected to the selected columns. */
  function Query(s: Store, q: ReportRequest): (r: Result<seq<Row>, ReportError>)
    ensures r.Ok? <==> Plan(q).Ok?
    ensures r.Err? ==> r == Err(Plan(q).error)
    ensures r.Ok? ==> |r.value| == |Where(s, q.filters)|
    ensures r.Ok? ==> forall i :: 0 <= i < |r.value| ==> r.value[i].Keys == set c | c in Plan(q).value.0
  {
    match Plan(q)
    case Err(e) => Err(e)
    case Ok((columns, order)) =>
      var rows := ReportRecords(s, q, order);
      assert |rows| == |multiset(rows)| == |Where(s, q.filters)|;
      Ok(seq(|rows|, i requires 0 <= i < |rows| => Project(rows[i], columns)))
  }

  /** Each report row is the projection of the matching registry row at the same position. */
  lemma QueryRows(s: Store, q: ReportRequest)
    requires Plan(q).Ok?
    ensures var rows := ReportRecords(s, q, Plan(q).value.1);
      && |Query(s, q).value| == |rows|
      && forall i :: 0 <= i < |rows| ==> Query(s, q).value[i] == Project(rows[i], Plan(q).value.0)
  {
  }

  /**
   * Soundness and completeness of a report: a row of the table shows up in
   * the report exactly as often as it is stored when it satisfies every
   * filter, and never otherwise.
   */
  lemma ReportComplete(s: Store, q: ReportRequest, order: Order, x: Record)
    requires DistinctIds(s)
    ensures multiset(ReportRecords(s, q, order))[x] == if x in s && MatchesFilters(x, q.filters) then 1 else 0
  {
    ReportRecordsMatch(s, q, order);
    DistinctIdsCountOnce(s, x);
  }

  lemma {:induction false} DistinctIdsCountOnce(s: Store, x: Record)
    requires DistinctIds(s)
    ensures multiset(s)[x] == if x in s then 1 else 0
    decreases |s|
  {
    if |s| > 0 {
      assert s == [s[0]] + s[1..];
      assert DistinctIds(s[1..]);
      DistinctIdsCountOnce(s[1..], x);
      if x == s[0] {
        assert x !in s[1..] by {
          forall j | 0 <= j < |s[1..]| ensures s[1..][j] != x { assert s[j + 1].id != s[0].id; }
        }
      }
    }
  }

  /** What `generate` renders: the report rows and the caller's saved reports. */
  datatype ReportPage = ReportPage(rows: seq<Row>, savedReports: seq<SavedReport>)

  /** `generate`. */
  function Generate(s: Store, configs: ConfigStore, user: nat, q: ReportRequest): (r: Result<ReportPage, ReportError>)
    ensures r.Ok? <==> Query(s, q).Ok?
    ensures r.Ok? ==> r.value.rows == Query(s, q).value
    ensures r.Ok? ==> r.value.savedReports == Index(configs, user)
    ensures r.Ok? ==> forall i :: 0 <= i < |r.value.savedReports| ==> r.value.savedReports[i].userId == user
  {
    match Query(s, q)
    case Err(e) => Err(e)
    case Ok(rows) => Ok(ReportPage(rows, Index(configs, user)))
  }

  /** A cell of the CSV file: a header label, or a value of a result row. */
  datatype Cell = Label(text: string) | Field(value: Value)

  /** The header line: the selected column names exactly as requested. */
  function Header(names: seq<string>): (line: seq<Cell>)
    ensures |line| == |names|
    ensures forall i :: 0 <= i < |names| ==> line[i] == Label(names[i])
  {
    seq(|names|, i requires 0 <= i < |names| => Label(names[i]))
  }

  /** A CSV line for one row: its values in the order of the row's keys (first occurrences of the selection). */
  function CsvLine(row: Row, columns: seq<Column>): (line: seq<Cell>)
    requires forall c :: c in columns ==> c in row
    ensures NoDuplicates(columns) ==> |line| == |columns|
  {
    var keys := Distinct(columns);
    seq(|keys|, i requires 0 <= i < |keys| => Field(row[keys[i]]))
  }

  function CsvLines(rows: seq<Row>, columns: seq<Column>): (lines: seq<seq<Cell>>)
    requires forall i, c :: 0 <= i < |rows| && c in columns ==> c in rows[i]
    ensures |lines| == |rows|
    ensures forall i :: 0 <= i < |rows| ==> lines[i] == CsvLine(rows[i], columns)
  {
    seq(|rows|, i requires 0 <= i < |rows| => CsvLine(rows[i], columns))
  }

  datatype ExportFile = Csv(lines: seq<seq<Cell>>) | Pdf(columns: seq<string>, rows: seq<Row>)

  /** `export`: the same query as `generate`, written as CSV or handed to the PDF view. */
  function Export(s: Store, q: ReportRequest, format: string): (r: Result<ExportFile, ReportError>)
    ensures Query(s, q).Err? ==> r == Err(Query(s, q).error)
    ensures Query(s, q).Ok? && format != "csv" && format != "pdf" ==> r == Err(InvalidFormat)
    ensures Query(s, q).Ok? && format == "csv" ==> r.Ok? && r.value.Csv?
    ensures Query(s, q).Ok? && format == "pdf" ==> r == Ok(Pdf(q.selectedColumns, Query(s, q).value))
    ensures r.Ok? && format == "csv" ==> |r.value.lines| == |Query(s, q).value| + 1 && r.value.lines[0] == Header(q.selectedColumns)
  {
    match Query(s, q)
    case Err(e) => Err(e)
    case Ok(rows) =>
      if format == "csv" then Ok(Csv([Header(q.selectedColumns)] + CsvLines(rows, Plan(q).value.0)))
      else if format == "pdf" then Ok(Pdf(q.selectedColumns, rows))
      else Err(InvalidFormat)
  }

  /** The PDF export hands the view exactly the rows `generate` shows. */
  lemma PdfMatchesGenerate(s: Store, configs: ConfigStore, user: nat, q: ReportRequest)
    requires Generate(s, configs, user, q).Ok?
    ensures Export(s, q, "pdf") == Ok(Pdf(q.selectedColumns, Generate(s, configs, user, q).value.rows))
  {
  }

  /** The CSV file of a successful query: the header line, then one line per row. */
  lemma CsvShape(s: Store, q: ReportRequest)
    requires Query(s, q).Ok?
    ensures Export(s, q, "csv").Ok? && Export(s, q, "csv").value.Csv?
    ensures Export(s, q, "csv").value.lines == [Header(q.selectedColumns)] + CsvLines(Query(s, q).value, Plan(q).value.0)
  {
  }

  /**
   * The CSV export is the header followed by one line per generated row, in
   * the same order.
   */
  lemma CsvMatchesGenerate(s: Store, configs: ConfigStore, user: nat, q: ReportRequest)
    requires Generate(s, configs, user, q).Ok?
    ensures Export(s, q, "csv").Ok?
    ensures Export(s, q, "csv").value.lines
      == [Header(q.selectedColumns)] + CsvLines(Generate(s, configs, user, q).value.rows, Plan(q).value.0)
  {
    CsvShape(s, q);
  }

  /** With a repeat-free selection every CSV line has one cell per selected column. */
  lemma CsvLinesAligned(s: Store, q: ReportRequest)
    requires Query(s, q).Ok?
    requires NoDuplicates(q.selectedColumns)
    ensures forall i :: 0 <= i < |Export(s, q, "csv").value.lines| ==> |Export(s, q, "csv").value.lines[i]| == |q.selectedColumns|
  {
    var columns := Plan(q).value.0;
    var rows := Query(s, q).value;
    CsvShape(s, q);
    var lines := Export(s, q, "csv").value.lines;
    assert lines == [Header(q.selectedColumns)] + CsvLines(rows, columns);
    assert NoDuplicates(columns) by {
      forall i, j | 0 <= i < j < |columns| ensures columns[i] != columns[j] {
        assert ColumnName(columns[i]) == q.selectedColumns[i];
        assert ColumnName(columns[j]) == q.selectedColumns[j];
      }
    }
    forall i | 0 <= i < |lines| ensures |lines[i]| == |q.selectedColumns| {
      if i > 0 { assert lines[i] == CsvLine(rows[i - 1], columns); }
    }
  }

  /** A stored report configuration. */
  datatype SavedReport = SavedReport(
    id: nat,
    userId: nat,
    name: string,
    selectedColumns: seq<string>,
    filters: Filters,
    sortBy: Option<string>,
    sortOrder: string)

  /** The `report_configs` table and its next auto-increment id. */
  datatype ConfigStore = ConfigStore(configs: seq<SavedReport>, nextId: nat)

  datatype SaveRequest = SaveRequest(
    name: Param,
    selectedColumns: seq<string>,
    filters: Filters,
    sortBy: Param,
    sortOrder: Param)

  function SaveChecks(q: SaveRequest): seq<(string, bool)> {
    [ ("name", RequiredString(q.name, 255)),
      ("selectedColumns", |q.selectedColumns| > 0),
      ("sortOrder", SortOrderAllowed(q.sortOrder)) ]
  }

  /** `save`: validate, then insert one configuration owned by the caller. */
  function Save(cs: ConfigStore, user: nat, q: SaveRequest): (r: Result<ConfigStore, ReportError>)
    ensures r.Ok? <==> RequiredString(q.name, 255) && |q.selectedColumns| > 0 && (q.sortOrder.Absent? || q.sortOrder.Given?) && SortOrderAllowed(q.sortOrder)
    ensures r.Ok? ==> |r.value.configs| == |cs.configs| + 1 && r.value.configs[..|cs.configs|] == cs.configs
    ensures r.Ok? ==> r.value.nextId == cs.nextId + 1 && r.value.configs[|cs.configs|].id == cs.nextId
    ensures r.Ok? ==> var c := r.value.configs[|cs.configs|];
      && c.userId == user && c.name == q.name.value && c.selectedColumns == q.selectedColumns && c.filters == q.filters
      && c.sortBy == (if q.sortBy.Absent? then Some("") else if q.sortBy.Null? then None else Some(q.sortBy.value))
      && c.sortOrder == (if q.sortOrder.Absent? then "asc" else q.sortOrder.value)
    ensures (!RequiredString(q.name, 255) || |q.selectedColumns| == 0 || !SortOrderAllowed(q.sortOrder)) ==> r.Err? && r.error.ValidationFailed?
  {
    var checks := SaveChecks(q);
    assert checks[0].1 == RequiredString(q.name, 255);
    assert checks[1].1 == (|q.selectedColumns| > 0) && checks[2].1 == SortOrderAllowed(q.sortOrder);
    var failing := Failing(checks);
    if |failing| > 0 then Err(ValidationFailed(failing))
    else if q.sortOrder.Null? then Err(StorageError)
    else
      var sortBy := if q.sortBy.Absent? then Some("") else if q.sortBy.Null? then None else Some(q.sortBy.value);
      var sortOrder := if q.sortOrder.Absent? then "asc" else q.sortOrder.value;
      var c := SavedReport(cs.nextId, user, q.name.value, q.selectedColumns, q.filters, sortBy, sortOrder);
      assert (cs.configs + [c])[..|cs.configs|] == cs.configs;
      Ok(ConfigStore(cs.configs + [c], cs.nextId + 1))
  }

  /** `index`: the caller's configurations, in storage order; nobody else's. */
  function Index(cs: ConfigStore, user: nat): (r: seq<SavedReport>)
    ensures forall i :: 0 <= i < |r| ==> r[i].userId == user
    ensures forall c :: c in r <==> c in cs.configs && c.userId == user
    ensures IsSubsequence(r, cs.configs)
  {
    FilterMembers(cs.configs, (c: SavedReport) => c.userId == user);
    FilterSubsequence(cs.configs, (c: SavedReport) => c.userId == user);
    Filter(cs.configs, (c: SavedReport) => c.userId == user)
  }
}

=== FILE: reports_page.dfy ===
/**
 * The report builder page: the dialog's form state, its column toggle and
 * the guards in front of the generate, save and export requests.
 */
module ReportsPage {
  import opened Results
  import opened Http
  import Lists
  import Registry
  import Reports

  datatype ColumnOption = ColumnOption(id: string, title: string)

  /** The checkbox list of the dialog, which is also the sort-column list. */
  const AvailableColumns: seq<ColumnOption> := [
    ColumnOption("surname", "Surname"),
    ColumnOption("given_name", "Given Name"),
    ColumnOption("nationality", "Nationality"),
    ColumnOption("country_of_residence", "Country of Residence"),
    ColumnOption("document_type", "Document Type"),
    ColumnOption("document_no", "Document No."),
    ColumnOption("dob", "Date of Birth"),
    ColumnOption("age", "Age"),
    ColumnOption("sex", "Sex"),
    ColumnOption("travel_date", "Travel Date"),
    ColumnOption("direction", "Direction"),
    ColumnOption("accommodation_address", "Accommodation Address"),
    ColumnOption("note", "Note"),
    ColumnOption("travel_reason", "Travel Reason"),
    ColumnOption("border_post", "Border Post"),
    ColumnOption("destination_coming_from", "Destination/Coming From")
  ]

  function AvailableIds(): (ids: seq<string>)
    ensures |ids| == |AvailableColumns|
    ensures forall i :: 0 <= i < |ids| ==> ids[i] == AvailableColumns[i].id
  {
    seq(|AvailableColumns|, i requires 0 <= i < |AvailableColumns| => AvailableColumns[i].id)
  }

  /** Sixteen options with pairwise distinct ids. */
  lemma AvailableIdsDistinct()
    ensures |AvailableColumns| == 16
    ensures Lists.NoDuplicates(AvailableIds())
  {
    var ids := AvailableIds();
    assert ids == ["surname", "given_name", "nationality", "country_of_residence", "document_type",
                   "document_no", "dob", "age", "sex", "travel_date", "direction",
                   "accommodation_address", "note", "travel_reason", "border_post",
                   "destination_coming_from"];
  }

  /** Every option names a column of the registry table. */
  lemma AvailableIdsAreColumns()
    ensures forall id :: id in AvailableIds() ==> Registry.ParseColumn(id).Some?
  {
    var ids := AvailableIds();
    assert ids == ["surname", "given_name", "nationality", "country_of_residence", "document_type",
                   "document_no", "dob", "age", "sex", "travel_date", "direction",
                   "accommodation_address", "note", "travel_reason", "border_post",
                   "destination_coming_from"];
  }

  const NoFilters: Reports.Filters := map[
    "nationality" := "", "sex" := "", "travel_date_from" := "",
    "travel_date_to" := "", "travel_reason" := "", "direction" := ""]

  datatype Form = Form(
    selectedColumns: seq<string>,
    filters: Reports.Filters,
    sortBy: string,
    sortOrder: string,
    reportName: string,
    formError: string)

  /** The state the dialog is reset to each time it opens. */
  function OpenDialog(f: Form): (r: Form)
    ensures r.selectedColumns == [] && r.sortBy == "" && r.sortOrder == "asc"
    ensures r.reportName == "" && r.formError == ""
    ensures r.filters == NoFilters
    ensures forall key :: !Reports.Active(r.filters, key)
  {
    Form([], NoFilters, "", "asc", "", "")
  }

  /** The choices the dialog's controls can produce. */
  predicate WellFormed(f: Form) {
    && (forall id :: id in f.selectedColumns ==> id in AvailableIds())
    && Lists.NoDuplicates(f.selectedColumns)
    && (f.sortBy == "" || f.sortBy in AvailableIds())
    && (f.sortOrder == "asc" || f.sortOrder == "desc")
  }

  /** `handleColumnChange`: tick or untick one column. */
  function ColumnChange(f: Form, id: string): (r: Form)
    ensures id in f.selectedColumns ==> r.selectedColumns == Lists.Remove(f.selectedColumns, id)
    ensures id !in f.selectedColumns ==> r.selectedColumns == f.selectedColumns + [id]
    ensures r == f.(selectedColumns := r.selectedColumns)
  {
    f.(selectedColumns := Lists.Toggle(f.selectedColumns, id))
  }

  /** The dialog's controls keep the form within the choices they offer. */
  lemma DialogStaysWellFormed(f: Form, id: string)
    requires WellFormed(f) && id in AvailableIds()
    ensures WellFormed(OpenDialog(f))
    ensures WellFormed(ColumnChange(f, id))
  {
    Lists.ToggleNoDuplicates(f.selectedColumns, id);
  }

  /** The body the page posts to the report endpoints. */
  datatype Payload = Payload(selectedColumns: seq<string>, filters: Reports.Filters, sortBy: string, sortOrder: string)

  datatype Post = Post(url: string, name: Option<string>, payload: Payload)

  /** The form after a handler, and the request it sent, if any. */
  datatype Outcome = Outcome(form: Form, sent: Option<Post>)

  function Current(f: Form): Payload {
    Payload(f.selectedColumns, f.filters, f.sortBy, f.sortOrder)
  }

  const NoColumns := "Please select at least one column."
  const NoName := "Please provide a report name."
  const NothingToExport := "Please generate a report before exporting."

  /** `handleCreateReport`. */
  function CreateReport(f: Form): (r: Outcome)
    ensures |f.selectedColumns| == 0 <==> r.sent.None?
    ensures r.sent.None? ==> r.form == f.(formError := NoColumns)
    ensures r.sent.Some? ==> r.form == f && r.sent.value == Post("/registry/reports/generate", None, Current(f))
  {
    if |f.selectedColumns| == 0 then Outcome(f.(formError := NoColumns), None)
    else Outcome(f, Some(Post("/registry/reports/generate", None, Current(f))))
  }

  /** `handleSaveReport`: the name is checked before the columns. */
  function SaveReport(f: Form): (r: Outcome)
    ensures r.sent.None? <==> f.reportName == "" || |f.selectedColumns| == 0
    ensures f.reportName == "" ==> r == Outcome(f.(formError := NoName), None)
    ensures f.reportName != "" && |f.selectedColumns| == 0 ==> r == Outcome(f.(formError := NoColumns), None)
    ensures r.sent.Some? ==> r.form == f && r.sent.value == Post("/registry/reports/save", Some(f.reportName), Current(f))
  {
    if f.reportName == "" then Outcome(f.(formError := NoName), None)
    else if |f.selectedColumns| == 0 then Outcome(f.(formError := NoColumns), None)
    else Outcome(f, Some(Post("/registry/reports/save", Some(f.reportName), Current(f))))
  }

  datatype Format = CsvFormat | PdfFormat

  function FormatName(format: Format): string {
    match format
    case CsvFormat => "csv"
    case PdfFormat => "pdf"
  }

  /** `handleExport`. */
  function Export(f: Form, format: Format): (r: Outcome)
    ensures |f.selectedColumns| == 0 <==> r.sent.None?
    ensures r.sent.None? ==> r.form == f.(formError := NothingToExport)
    ensures r.sent.Some? ==> r.form == f && r.sent.value.payload == Current(f)
    ensures r.sent.Some? ==> r.sent.value.url == "/registry/reports/export/" + FormatName(format)
  {
    if |f.selectedColumns| == 0 then Outcome(f.(formError := NothingToExport), None)
    else Outcome(f, Some(Post("/registry/reports/export/" + FormatName(format), None, Current(f))))
  }

  /** A saved report as the page receives it. */
  datatype SavedView = SavedView(id: nat, name: string, selectedColumns: seq<string>,
                                 filters: Reports.Filters, sortBy: string, sortOrder: string)

  /** `handleLoadSavedReport`: copy the saved choices into the form and submit them unchecked. */
  function LoadSavedReport(f: Form, saved: SavedView): (r: Outcome)
    ensures r.sent.Some?
    ensures r.sent.value.url == "/registry/reports/generate" && r.sent.value.name.None?
    ensures r.sent.value.payload.selectedColumns == saved.selectedColumns
      && r.sent.value.payload.filters == saved.filters
      && r.sent.value.payload.sortBy == saved.sortBy
      && r.sent.value.payload.sortOrder == saved.sortOrder
    ensures r.form.reportName == f.reportName && r.form.formError == f.formError
    ensures r.sent.value.payload == Current(r.form)
  {
    var loaded := f.(selectedColumns := saved.selectedColumns, filters := saved.filters,
                     sortBy := saved.sortBy, sortOrder := saved.sortOrder);
    Outcome(loaded, Some(Post("/registry/reports/generate", None, Current(loaded))))
  }

  /**
   * The request the controller sees. The framework trims every string and
   * then turns what is left empty into null: a blank sort column arrives as
   * null, and a blank filter value arrives empty, which no filter reads.
   * The selected names are the page's fixed column ids and arrive as sent.
   */
  function Received(p: Payload): (q: Reports.ReportRequest)
    ensures q.selectedColumns == p.selectedColumns
    ensures q.sortBy.Null? <==> Blank(p.sortBy)
    ensures q.sortOrder.Null? <==> Blank(p.sortOrder)
    ensures q.sortBy.Given? ==> q.sortBy.value == Trim(p.sortBy)
    ensures q.sortOrder.Given? ==> q.sortOrder.value == Trim(p.sortOrder)
    ensures q.filters.Keys == p.filters.Keys
    ensures forall k :: k in p.filters && Blank(p.filters[k]) ==> !Reports.Active(q.filters, k)
    ensures forall k :: k in p.filters && !Blank(p.filters[k]) ==> q.filters[k] == Trim(p.filters[k])
  {
    Reports.ReportRequest(
      p.selectedColumns,
      map k | k in p.filters :: Trim(p.filters[k]),
      Arrive(Given(p.sortBy), true),
      Arrive(Given(p.sortOrder), true))
  }

  /** The page's column ids and directions have nothing to trim, so they arrive as sent. */
  lemma ReceivedKeepsFormValues(f: Form)
    requires WellFormed(f)
    ensures Received(Current(f)).sortOrder == Given(f.sortOrder)
    ensures f.sortBy == "" ==> Received(Current(f)).sortBy == Null
    ensures f.sortBy != "" ==> Received(Current(f)).sortBy == Given(f.sortBy)
  {
    TrimKeepsPlain(f.sortOrder);
    if f.sortBy != "" {
      AvailableIdsAreColumns();
      var c := Registry.ParseColumn(f.sortBy).value;
      Registry.ColumnNamePlain(c);
    }
  }

  /** Whatever the dialog lets the user submit, the server accepts and plans. */
  lemma SubmittedReportAccepted(f: Form)
    requires WellFormed(f)
    ensures CreateReport(f).sent.Some? ==> Reports.Plan(Received(CreateReport(f).sent.value.payload)).Ok?
  {
    if CreateReport(f).sent.Some? {
      AvailableIdsAreColumns();
      ReceivedKeepsFormValues(f);
      var q := Received(Current(f));
      assert forall i :: 0 <= i < |q.selectedColumns| ==> Registry.ParseColumn(q.selectedColumns[i]).Some? by {
        forall i | 0 <= i < |q.selectedColumns| ensures Registry.ParseColumn(q.selectedColumns[i]).Some? {
          assert q.selectedColumns[i] in f.selectedColumns;
        }
      }
      if Reports.Sorts(q) {
        assert Registry.ParseColumn(f.sortBy).Some?;
      }
    }
  }
}

=== FILE: results.dfy ===
/** Failure-carrying result values shared by every controller model. */
module Results {

  /** A value that may be missing: a nullable column or an optional request field. */
  datatype Option<+T> = None | Some(value: T)

  /** The outcome of a controller action: its effect, or the reason it was refused. */
  datatype Result<+T, +E> = Ok(value: T) | Err(error: E)
}

=== FILE: settings_layout.dfy ===
/** The settings pages' side navigation: three links for everyone, a fourth for admins. */
module SettingsLayout {
  import opened Results
  import opened AuthProps
  import Sidebar

  const CommonItems: seq<Sidebar.NavItem> := [
    Sidebar.NavItem("Profile", "/settings/profile", None),
    Sidebar.NavItem("Password", "/settings/password", None),
    Sidebar.NavItem("Appearance", "/settings/appearance", None)
  ]

  const UserManagement := Sidebar.NavItem("User Management", "/settings/users", None)

  predicate IsAdmin(user: AuthUser) {
    user.role == Some("admin")
  }

  function NavItems(user: AuthUser): (r: seq<Sidebar.NavItem>)
    ensures |r| == if IsAdmin(user) then 4 else 3
    ensures r[..3] == CommonItems
    ensures r[0].title == "Profile" && r[1].title == "Password" && r[2].title == "Appearance"
    ensures UserManagement in r <==> IsAdmin(user)
    ensures IsAdmin(user) ==> r[3] == UserManagement
  {
    CommonItems + (if IsAdmin(user) then [UserManagement] else [])
  }

  /** The item whose href equals the current path is the highlighted one. */
  predicate Highlighted(currentPath: string, item: Sidebar.NavItem) {
    currentPath == item.href
  }

  /** The four hrefs differ, so at most one item is highlighted for any path. */
  lemma AtMostOneHighlighted(user: AuthUser, currentPath: string, i: nat, j: nat)
    requires i < j < |NavItems(user)|
    ensures !(Highlighted(currentPath, NavItems(user)[i]) && Highlighted(currentPath, NavItems(user)[j]))
  {
    var items := NavItems(user);
    assert items[0].href == "/settings/profile" && items[1].href == "/settings/password";
    assert items[2].href == "/settings/appearance";
    if IsAdmin(user) { assert items[3].href == "/settings/users"; }
  }
}

=== FILE: sidebar.dfy ===
/** The application sidebar: its main links, filtered by the user's permissions. */
module Sidebar {
  import opened Results
  import Lists
  import opened AuthProps

  /** A link; `permission` is the one the user needs to see it, if any. */
  datatype NavItem = NavItem(title: string, href: string, permission: Option<string>)

  const GroupsPermission := "view groups"

  const MainNavItems: seq<NavItem> := [
    NavItem("Dashboard", "/dashboard", None),
    NavItem("Registry", "/registry", None),
    NavItem("Upload Data", "/registry/upload", None),
    NavItem("Group Management", "/groups", Some(GroupsPermission))
  ]

  /** An item is shown when it needs no permission (none, or an empty one) or the user has it. */
  predicate Visible(item: NavItem, user: Option<AuthUser>) {
    item.permission.None? || item.permission.value == "" || Can(user, item.permission.value)
  }

  function FilteredItems(items: seq<NavItem>, user: Option<AuthUser>): (r: seq<NavItem>)
    ensures forall item :: item in r <==> item in items && Visible(item, user)
    ensures Lists.IsSubsequence(r, items)
  {
    Lists.FilterMembers(items, item => Visible(item, user));
    Lists.FilterSubsequence(items, item => Visible(item, user));
    Lists.Filter(items, item => Visible(item, user))
  }

  /** The main links a user sees, in declaration order. */
  function MainNav(user: Option<AuthUser>): (r: seq<NavItem>)
    ensures Lists.IsSubsequence(r, MainNavItems)
    ensures forall item :: item in MainNavItems && item.permission.None? ==> item in r
    ensures forall item :: item in MainNavItems && item.permission.Some? ==> (item in r <==> Can(user, item.permission.value))
  {
    FilteredItems(MainNavItems, user)
  }

  /** Exactly Group Management is hidden from a user without the groups permission, and nothing otherwise. */
  lemma MainNavContents(user: Option<AuthUser>)
    ensures !Can(user, GroupsPermission) ==> MainNav(user) == MainNavItems[..3]
    ensures Can(user, GroupsPermission) ==> MainNav(user) == MainNavItems
    ensures user.None? ==> MainNav(user) == MainNavItems[..3]
  {
    var keep := item => Visible(item, user);
    var common := MainNavItems[..3];
    assert MainNavItems == common + [MainNavItems[3]];
    Lists.FilterAppend(common, [MainNavItems[3]], keep);
    Lists.FilterKeepsAll(common, keep);
  }
}

=== FILE: sorting.dfy ===
/**
 * Ordering a result set by one key. SQL's ORDER BY leaves the relative order
 * of equal keys open; this model fixes one deterministic order (insertion
 * sort) and promises only what ORDER BY promises: sortedness and that the
 * rows are a permutation of the input.
 */
module Sorting {

  /** `le` is total and transitive: a comparator ORDER BY could use. */
  ghost predicate TotalPreorder<T(!new)>(le: (T, T) -> bool) {
    && (forall a, b :: le(a, b) || le(b, a))
    && (forall a, b, c :: le(a, b) && le(b, c) ==> le(a, c))
  }

  predicate SortedBy<T>(s: seq<T>, le: (T, T) -> bool) {
    forall i, j :: 0 <= i < j < |s| ==> le(s[i], s[j])
  }

  function Insert<T(!new)>(x: T, s: seq<T>, le: (T, T) -> bool): (r: seq<T>)
    requires TotalPreorder(le)
    requires SortedBy(s, le)
    ensures SortedBy(r, le)
    ensures multiset(r) == multiset(s) + multiset{x}
    decreases |s|
  {
    if |s| == 0 then [x]
    else if le(x, s[0]) then [x] + s
    else
      var rest := Insert(x, s[1..], le);
      HeadIsLeast(s, le);
      assert s == [s[0]] + s[1..];
      assert forall k :: 0 <= k < |rest| ==> le(s[0], rest[k]) by {
        forall k | 0 <= k < |rest| ensures le(s[0], rest[k]) {
          assert rest[k] in multiset(rest);
        }
      }
      [s[0]] + rest
  }

  /** In a sorted sequence the head is below every later element. */
  lemma HeadIsLeast<T>(s: seq<T>, le: (T, T) -> bool)
    requires SortedBy(s, le) && |s| > 0
    ensures forall y :: y in multiset(s[1..]) ==> le(s[0], y)
  {
    forall y | y in multiset(s[1..]) ensures le(s[0], y) {
      var j :| 0 <= j < |s[1..]| && s[1..][j] == y;
      assert s[j + 1] == y;
    }
  }

  function Sort<T(!new)>(s: seq<T>, le: (T, T) -> bool): (r: seq<T>)
    requires TotalPreorder(le)
    ensures SortedBy(r, le)
    ensures multiset(r) == multiset(s)
    ensures |r| == |s|
    decreases |s|
  {
    if |s| == 0 then []
    else
      assert s == [s[0]] + s[1..];
      var r := Insert(s[0], Sort(s[1..], le), le);
      assert |r| == |multiset(r)| == |multiset(s)| == |s|;
      r
  }
}

=== FILE: strings.dfy ===
/** String facts the models rely on: substring search, ordering and ASCII case folding. */
module Strings {

  /** `needle` occurs as one contiguous block of `hay` (a `LIKE '%needle%'` match). */
  predicate Contains(hay: string, needle: string)
    decreases |hay|
  {
    StartsWith(hay, needle) || (|hay| > 0 && Contains(hay[1..], needle))
  }

  predicate StartsWith(s: string, prefix: string) {
    |prefix| <= |s| && s[..|prefix|] == prefix
  }

  /** Lexicographic order by code point; the order of a string column and of ISO dates. */
  predicate LexLe(a: string, b: string)
    decreases |a|
  {
    |a| == 0 || (|b| > 0 && (a[0] < b[0] || (a[0] == b[0] && LexLe(a[1..], b[1..]))))
  }

  lemma {:induction false} LexLeRefl(a: string)
    ensures LexLe(a, a)
    decreases |a|
  {
    if |a| > 0 {
      LexLeRefl(a[1..]);
    }
  }

  lemma {:induction false} LexLeTotal(a: string, b: string)
    ensures LexLe(a, b) || LexLe(b, a)
    decreases |a|
  {
    if |a| > 0 && |b| > 0 && a[0] == b[0] {
      LexLeTotal(a[1..], b[1..]);
    }
  }

  lemma {:induction false} LexLeTrans(a: string, b: string, c: string)
    requires LexLe(a, b) && LexLe(b, c)
    ensures LexLe(a, c)
    decreases |a|
  {
    if |a| > 0 && a[0] == b[0] && b[0] == c[0] {
      LexLeTrans(a[1..], b[1..], c[1..]);
    }
  }

  lemma {:induction false} LexLeAntisym(a: string, b: string)
    requires LexLe(a, b) && LexLe(b, a)
    ensures a == b
    decreases |a|
  {
    if |a| > 0 {
      LexLeAntisym(a[1..], b[1..]);
      assert a == [a[0]] + a[1..];
      assert b == [b[0]] + b[1..];
    }
  }

  /** JavaScript's `toLowerCase` restricted to ASCII letters. */
  function LowerChar(c: char): (d: char)
    ensures 'A' <= c <= 'Z' ==> 'a' <= d <= 'z' && d as int == c as int + 32
    ensures !('A' <= c <= 'Z') ==> d == c
  {
    if 'A' <= c <= 'Z' then (c as int + 32) as char else c
  }

  function Lower(s: string): (r: string)
    ensures |r| == |s|
    ensures forall i :: 0 <= i < |s| ==> r[i] == LowerChar(s[i])
  {
    seq(|s|, i requires 0 <= i < |s| => LowerChar(s[i]))
  }

  /** Case folding is idempotent: a folded string folds to itself. */
  lemma LowerIdempotent(s: string)
    ensures Lower(Lower(s)) == Lower(s)
  {
  }

  /** Case folding works character by character, so it distributes over concatenation. */
  lemma LowerConcat(a: string, b: string)
    ensures Lower(a + b) == Lower(a) + Lower(b)
  {
    assert forall i :: 0 <= i < |a + b| ==> Lower(a + b)[i] == (Lower(a) + Lower(b))[i];
  }
}
